=== FILE: README.md ===
# Local document search — a verified model of its core

The application is a single-session document search tool (`app.py`). Users
upload plain-text or PDF files. Each file name is sanitised, the raw bytes go
through a size and binary guard, and the extracted text is stored in a corpus
keyed by file name, together with a few metrics. A search runs a literal query
over the selected documents and returns the matches of each document. The
query may be case-insensitive and may be restricted to whole words. Each match
carries its offset, its 1-based line number and that line's text, the exact
text matched, and an optional context window in which the match is marked with
`**`. Successful queries are kept in a ten-entry recent-search list, and a
viewer pages through a document's lines.

The model is written in Dafny. It has six modules:

- `Text` (`text.dfy`): the string primitives the source relies on, with
  their laws.
  - ASCII `lower` and the `\w` character class.
  - `str.count` for one character.
  - `str.split(sep)` / `sep.join`, proved to be inverses.
  - The line around an offset.
  - `str.split()` on whitespace, with its token count proved equal to the
    number of maximal non-whitespace runs.
- `Ingestion` (`ingestion.dfy`):
  - `sanitize_filename`;
  - `validate_file_content`;
  - the document record built by `process_uploaded_file`;
  - the last-write-wins corpus update.
- `Search` (`search.dfy`): the match engine and the orchestrator of
  `perform_search_enhanced`.
  - `re.finditer` over an escaped literal, optionally between `(?<!\w)` and
    `(?!\w)`, is `Occurrences`. It is proved sound, ordered, non-overlapping
    and complete.
  - The per-match loop is the method `AnnotateMatches`. `ScanDocument` runs
    it over the scan of one document.
  - The loop over the selected files is the method `PerformSearch`. Both are
    proved equal to specification functions (`FileMatches`, `SearchAll`),
    and the lemmas state what those functions promise.
- `History` (`history.dfy`): the recent-search list.
  - A class whose `entries` field is updated in place by `Record`.
  - `Recorded` specifies the update, and its lemmas state the cap, the
    ordering and distinctness.
- `Viewer` (`viewer.dfy`): the pagination arithmetic of the document viewer,
  and the proof that its pages put back together give the document.
- `Scenarios` (`scenarios.dfy`): three concrete searches computed through the
  model.
  - Case-insensitive "hello".
  - Whole-word "cat".
  - The line number of a match on the third line.

The displayed context is bounded by the match length plus twice the radius
plus the four marker characters, because the source adds the `**` markers
around the match inside the clipped window (app.py:241-245).

## Model

| member | source | states |
|---|---|---|
| Text.Lower | app.py:216-218 | A capital becomes its own small letter (the same position in the alphabet), every other character is unchanged, no capital remains, and a character's word-character class is kept. |
| Text.FoldAlike | app.py:216-218 | Two strings lower-case to the same string exactly when they have the same length and agree at every position up to ASCII case. |
| Text.Fold | app.py:217-218 | `lower()` keeps the length and lower-cases every character in place. |
| Text.FoldSlice | app.py:233 | Lower-casing commutes with slicing, so offsets in the lowered copy index the original. |
| Text.Count | app.py:250 | `s.count(c)` is never more than the length of `s`; `Split` and `SplitLineAt` fix its meaning as the newline count that indexes the lines. |
| Text.Split | app.py:251 | `split('\n')` has exactly one more piece than the text has newlines. |
| Text.Join | app.py:567 | `sep.join(parts)`: its meaning is fixed by `JoinSplit` and `SplitJoin` (join and split undo each other). |
| Text.JoinSplit | app.py:251 | Joining the pieces of a split with the separator gives the text back. |
| Text.SplitJoin | app.py:251 | Splitting a join of a non-empty list of separator-free pieces (empty pieces included) gives the pieces back. |
| Text.SplitLineAt | app.py:250-252 | The piece of `split('\n')` whose index is the number of newlines before an offset is the line around that offset. |
| Text.Tokens | app.py:178 | `split()` yields non-empty tokens with no whitespace. |
| Text.TokensCoverText | app.py:178 | The tokens of `split()`, concatenated, are exactly the non-whitespace characters of the text, in order. |
| Text.IsBlank | app.py:173 | `not s.strip()`: every character is whitespace; `TokensEmptyIffBlank` ties it to `split()`. |
| Text.TokensEmptyIffBlank | app.py:173 | `split()` is empty exactly when `strip()` is empty. |
| Text.TokensBounded | app.py:178 | `split()` yields no more tokens than the text has characters. |
| Text.TokensCountWords | app.py:178 | `len(split())` is the number of places where a non-whitespace character is followed by whitespace or the end of the text. |
| Text.TokensAreRuns | app.py:178 | Every token of `split()` is a slice of the text with whitespace or an end of the text on both sides; with `Tokens`' own contract (no whitespace inside), each token is a whole maximal run of non-whitespace. |
| Ingestion.BaseName | app.py:48 | `os.path.basename` is never longer than the path; `BaseNameIsTail` states it is the `/`-free tail after the last `/`. |
| Ingestion.BaseNameIsTail | app.py:48 | The base name holds no `/`, is a suffix of the path, and is the whole path or follows a `/`. |
| Ingestion.ReplaceUnsafe | app.py:49 | `re.sub(r'[^\w\-\.]', '_', …)` keeps the length and leaves only word characters, `-` and `.`. |
| Ingestion.SanitizeFilename | app.py:46-50 | A sanitised name is at most 255 characters long. |
| Ingestion.SanitizeSafe | app.py:49 | A sanitised name holds only word characters, `-` and `.`, so it holds no `/`. |
| Ingestion.SanitizeKeeps | app.py:48-50 | A sanitised name is the first 255 characters of the base name, with every unsafe character replaced by `_`. |
| Ingestion.SanitizeIdempotent | app.py:46-50 | Sanitising a sanitised name changes nothing. |
| Ingestion.ValidateFileContent | app.py:53-62 | Rejected as too large exactly when over 50 MiB. Otherwise rejected for NUL bytes exactly when a 0 byte is among the first 1024. Otherwise accepted. |
| Ingestion.MakeDocument | app.py:173-183 | A record exists exactly when the text is not blank. It holds the text and type, `size` is the length, `lines` is the newline count plus one, and `words` is the number of maximal non-whitespace runs, between 1 and the size. |
| Ingestion.IsPdfName | app.py:141 | `filename.lower().endswith('.pdf')`; `Ingest` uses it for the PDF refusal and the document type. |
| Ingestion.Ingest | app.py:130-187 | Each outcome has an exact condition. Too large when over 50 MiB, with the size. NUL bytes when validation finds one. PDF unsupported when a valid `.pdf` name has no reader. Empty when validated, readable and blank. Stored in every other case. A stored document is under the sanitised name, holds the text, is a PDF exactly when the name ends in `.pdf`, and carries the size, word and line metrics. |
| Ingestion.Upload | app.py:295-300 | The corpus after one upload; `OversizedNotStored` and `UploadLastWriteWins` state what it keeps and what it replaces. |
| Ingestion.OversizedNotStored | app.py:295-300 | An upload over 50 MiB leaves the corpus unchanged. |
| Ingestion.UploadLastWriteWins | app.py:295-300 | A stored upload replaces whatever was kept under its sanitised name with the very record `Ingest` returns (so its content, type and metrics are `Ingest`'s); every other entry is kept as it was. |
| Search.Normalize | app.py:213-218 | The query and the content are compared unchanged when case-sensitive and lower-cased otherwise, keeping their length; `MatchesAtOriginal` restates a match over the original text. |
| Search.MatchesAt | app.py:220-226 | The escaped pattern (with `(?<!\w)`/`(?!\w)` when whole-word) matches at an offset; `OccurrencesMatch` and `OccurrencesComplete` tie the scan to it. |
| Search.Occurrences | app.py:226 | Every reported match lies inside the searched text, at or after the start of the scan. |
| Search.OccurrencesMatch | app.py:220-226 | Every reported position is a match of the literal, with the word boundaries when asked for. |
| Search.OccurrencesDisjoint | app.py:226 | Reported matches are strictly increasing and never overlap. |
| Search.OccurrencesComplete | app.py:226 | Every position where the pattern matches is reported or lies inside a reported match. |
| Search.ContextStart | app.py:236 | `max(0, start - context_chars)` lies at most `context_chars` before the match, and exactly that far unless it is 0. |
| Search.ContextEnd | app.py:237 | `min(len(content), end + context_chars)` is within the document and at most `context_chars` past the match end, exactly that far unless it is the document's end, and never before the match end. |
| Search.Highlight | app.py:235-246 | The highlighted context is the clipped window plus the two markers, so at most the match plus twice the radius plus four characters. |
| Search.HighlightShape | app.py:235-246 | The highlighted context is the text before the match, `**`, the match, `**`, and the text after it, all from the clipped window. |
| Search.Annotate | app.py:231-261 | One match record: offset, line number, line text, original-case match, context and length; `AnnotateText` and `AnnotateLine` state what each field holds. |
| Search.LineNumber | app.py:250 | `content[:s].count('\n') + 1` is at least 1 and at most `s + 1`. |
| Search.LineText | app.py:251-252 | `lines[line - 1]` or `""`; `LineTextAt` states the fallback is never taken and the piece is the line around the match. |
| Search.AnnotateText | app.py:231-248 | A record holds its offset and length, slices its exact text from the original content, and its context is the exact text or the marked window. |
| Search.AnnotateLine | app.py:250-252 | A record's line number is at least 1 and names a line that exists. Its line text is the newline-free line around the match. |
| Search.LineTextAt | app.py:250-252 | The line number never runs past `len(lines)`, so the `""` fallback is never taken, and the indexed line is the line around the offset. |
| Search.LineAround | app.py:250-252 | The line around an offset is bounded by newlines or the document's ends and holds no newline. |
| Search.FoldBoundaries | app.py:220-221 | A word-boundary test on the lowered copy gives the same answer as on the original. |
| Search.MatchesAtOriginal | app.py:213-226 | The pattern matches the searched text at an offset exactly when the original there is the query (case-sensitive) or folds to the folded query, with word boundaries in the original when asked for. |
| Search.ScanDocument | app.py:213-261 | Normalising, scanning and annotating give exactly the records of `FileMatches`, in order. |
| Search.AnnotateMatches | app.py:230-261 | The per-match loop builds one record per reported position, in order. |
| Search.FileMatches | app.py:213-261 | The records of one document; `FileMatchesLiteral`, `FileMatchesOrdered`, `FileMatchesComplete` and `FileMatchesFields` state what they are. |
| Search.FileMatchesLiteral | app.py:213-233 | Every record is the query's length and sliced from the original with its casing. It folds to the folded query, is the query itself when case-sensitive, and has no adjacent word character for whole words. |
| Search.FileMatchesOrdered | app.py:226-228 | Records are ascending by offset and never overlap. |
| Search.FileMatchesComplete | app.py:220-226 | Every occurrence of the query in the original content, under the chosen case and word rules, lies inside some record. |
| Search.FileMatchesFields | app.py:235-252 | Every record's context follows the window formula, and its line fields are the newline count plus one and the line holding the match. |
| Search.PerformSearch | app.py:190-276 | A query over 1000 characters gives `([], 0, message)` before any document is read. Otherwise the result is the entries of the selected documents in order, with no error and total equal to the sum of the counts. |
| Search.SearchAll | app.py:205-269 | The result entries in `search_in` order; `SearchAllEntries`, `SearchAllComplete` and `SearchAllEmptyCorpus` state what they are. |
| Search.SearchAllEntries | app.py:205-269 | Every entry names a selected document of the corpus. It carries that document's type and matches, and its count is the number of its matches, never zero. |
| Search.SearchAllComplete | app.py:205-269 | Every selected document of the corpus with a match has an entry. |
| Search.SearchAllEmptyCorpus | app.py:202-276 | An empty corpus gives no entries and a total of zero. |
| Search.TotalCountsRecords | app.py:263-269 | When each count equals its number of matches, the total is the number of match records. |
| Search.SearchTotal | app.py:263-269 | The total a search reports is the number of match records it returns. |
| History.Recorded | app.py:353-356 | After recording, the query is listed, and every entry is the query or was listed before. |
| History.RecordedKnown | app.py:353 | A query already listed leaves the list unchanged. |
| History.RecordedNew | app.py:354-356 | A new query goes in front, the older entries follow in order, and only the entries beyond ten are dropped. |
| History.RecordedBounded | app.py:355-356 | The list never exceeds ten entries. |
| History.RecordedDistinct | app.py:353-356 | No query is listed twice. |
| History.RecordedIdempotent | app.py:353-356 | Recording the same query twice in a row equals recording it once. |
| History.SearchHistory.constructor | app.py:67-68 | A session starts with an empty history. |
| History.SearchHistory.Record | app.py:353-356 | The list becomes `Recorded` of the old list, stays within ten distinct entries, and holds the query. |
| Viewer.TotalPages | app.py:561 | `max(1, ceil(len(lines) / lines_per_page))` is at least 1; `TotalPagesFit` states it is the least page count that holds every line. |
| Viewer.PageStart | app.py:563 | `(page - 1) * lines_per_page`; `PagesTile` and `LineOnPage` state how the pages divide the lines. |
| Viewer.PageEnd | app.py:564 | `min(start + lines_per_page, len(lines))` is within the lines and at most one page past the start, exactly one page past unless it is the last line. |
| Viewer.TotalPagesFit | app.py:561 | The page count is at least 1, its pages hold every line, and one page fewer would not. |
| Viewer.PageBounds | app.py:563-565 | Every allowed page lies within the lines, holds at most `lines_per_page` lines, and is non-empty when there are lines. |
| Viewer.PagesTile | app.py:563-565 | Page 1 starts at line 0, each page ends where the next begins, and the last page ends at the last line. |
| Viewer.LineOnPage | app.py:561-565 | Line `i` is shown on page `i // lines_per_page + 1`, which the page picker allows. |
| Viewer.PageContent | app.py:559-567 | `"\n".join(lines[start:end])` for one page; `AllPages` and `PagesReassemble` state that the pages, in order, make up the document. |
| Viewer.FirstPages | app.py:559-567 | The first `k` pages, joined with newlines, are the lines up to the end of page `k`, joined with newlines. |
| Viewer.AllPages | app.py:559-567 | There is one page text per page number the picker allows, and page text `i` is what the viewer shows for page `i + 1` (`PageContent`). |
| Viewer.PagesReassemble | app.py:559-567 | The page texts (`PageContent` for pages 1 to the page count), joined with newlines, are the document. |
| Scenarios.CaseInsensitiveKeepsCasing | app.py:213-233 | A case-insensitive "hello" over "Hello HELLO hello" yields three matches, at 0, 6 and 12, with texts "Hello", "HELLO" and "hello". |
| Scenarios.WholeWordSkipsLongerWord | app.py:220-221 | A whole-word "cat" over "cat category cat" yields matches at 0 and 13 only. |
| Scenarios.LineOfThirdLine | app.py:250-252 | "match" in "a\nb\nmatch\n" is at offset 4, on line 3, whose text is "match". |

## Left out

- The Streamlit interface is not modelled. That covers page setup, widgets, tabs, `st.rerun`, the remove and clear buttons, the analytics tab, the numbered-line view, the five-entry history display, the 100-match display cut-off and the plain-text report download. They are presentation over the modelled state.
- The session-state dictionary is not modelled as a whole. The corpus is an explicit `map` parameter. The recent-search list is the `SearchHistory` class.
- Byte decoding is a parameter, not modelled. UTF-8 with a Latin-1 fallback, and PDF page extraction (pypdf, the temporary file, joining pages with blank lines) happen outside the model. `Ingest` receives the resulting text as its `text` parameter, and whether a PDF reader is installed as `pdfSupport`.
- The generic exception branches are not modelled: the `re.error` and `Exception` branches of `perform_search_enhanced`, and the `Exception` branch of `process_uploaded_file`. The pattern is an escaped literal, so compiling it cannot fail, and extraction failures lie outside the model.
- Lower and IsWordChar are ASCII only. Python's `str.lower` and `\w` are Unicode-aware, and `lower()` can change the length of some non-ASCII strings. The model's folding keeps lengths, which the source's offset arithmetic silently assumes.
- BaseNameIsTail: models POSIX `os.path.basename`, which splits only at `/`. On Windows `os.path` is `ntpath`, which also splits at `\` and after a drive letter. That variant is not modelled.
- SanitizeSafe: under ASCII `\w`, non-ASCII letters in a file name become `_`. Python's `\w` keeps them.
- The `re.IGNORECASE` flag is not modelled separately. In the source it is applied on top of text and pattern that are both already lower-cased, and under ASCII folding it changes nothing.
- Message texts are not modelled, apart from the query-length message. `Verdict` and `Rejection` name the outcome only, and the MB figure in the size message is not formatted. The unused `filename` parameter of `validate_file_content` is dropped.
- PerformSearch: requires a non-empty query. Its only caller (app.py:335) searches only when the query is non-empty. Python's behaviour for an empty pattern, a zero-length match at every offset, is not modelled.
- PerformSearch: `context_chars` is a natural number, because the slider that sets it has no negative values.
- The viewer lemmas assume what the widgets enforce. They require `lines_per_page > 0` (the slider gives 50 to 200) and a page between 1 and the page count (the number input's bounds).
- History.SearchHistory.Record: the model does not include the surrounding control flow. The source calls it only after a search without error (app.py:347-356).

=== FILE: history.dfy ===
/** The recent-search list: a successful search puts its query at the front
    unless it is already listed, and the list keeps the ten newest queries. */
module History {
  /** The list never holds more than this many queries. */
  const Capacity: nat := 10

  /** No query appears twice. */
  predicate Distinct(h: seq<string>) {
    forall i, j :: 0 <= i < j < |h| ==> h[i] != h[j]
  }

  /** The list after recording `q`: unchanged when `q` is already listed;
      otherwise `q` goes in front and the list is cut back to the capacity. */
  function Recorded(h: seq<string>, q: string): (r: seq<string>)
    ensures q in r
    ensures forall x :: x in r ==> x == q || x in h
  {
    if q in h then h
    else
      var grown := [q] + h;
      var r := if |grown| > Capacity then grown[..Capacity] else grown;
      assert r[0] == q;
      assert forall x :: x in r ==> x in grown;
      r
  }

  /** A query already listed leaves the list as it is, order included. */
  lemma RecordedKnown(h: seq<string>, q: string)
    requires q in h
    ensures Recorded(h, q) == h
  {
  }

  /** A new query becomes the newest entry, the older entries follow in their
      old order, and only the oldest ones beyond the capacity are dropped. */
  lemma RecordedNew(h: seq<string>, q: string)
    requires q !in h
    ensures var r := Recorded(h, q);
      && r[0] == q
      && |r| == (if |h| + 1 <= Capacity then |h| + 1 else Capacity)
      && r[1..] == h[..|r| - 1]
  {
    var r := Recorded(h, q);
    assert r[1..] == h[..|r| - 1];
  }

  /** The list never grows past the capacity once it is within it. */
  lemma RecordedBounded(h: seq<string>, q: string)
    requires |h| <= Capacity
    ensures |Recorded(h, q)| <= Capacity
  {
  }

  /** Recording keeps the entries distinct. */
  lemma RecordedDistinct(h: seq<string>, q: string)
    requires Distinct(h)
    ensures Distinct(Recorded(h, q))
  {
    if q !in h {
      var grown := [q] + h;
      forall i, j | 0 <= i < j < |grown|
        ensures grown[i] != grown[j]
      {
        if i == 0 {
          assert grown[j] == h[j - 1];
        } else {
          assert grown[i] == h[i - 1] && grown[j] == h[j - 1];
        }
      }
      var r := Recorded(h, q);
      forall i, j | 0 <= i < j < |r|
        ensures r[i] != r[j]
      {
        assert r[i] == grown[i] && r[j] == grown[j];
      }
    }
  }

  /** Recording the same query twice in a row is the same as recording it once. */
  lemma RecordedIdempotent(h: seq<string>, q: string)
    ensures Recorded(Recorded(h, q), q) == Recorded(h, q)
  {
  }

  /** The history list held by the session, updated in place. */
  class SearchHistory {
    var entries: seq<string>

    /** At most the capacity, and no query twice. */
    ghost predicate Valid()
      reads this
    {
      |entries| <= Capacity && Distinct(entries)
    }

    /** A session starts with an empty history. */
    constructor ()
      ensures Valid()
      ensures entries == []
    {
      entries := [];
    }

    /** Records the query of a search that succeeded: insert at the front when
        absent, then truncate to the capacity. */
    method Record(query: string)
      requires Valid()
      modifies this
      ensures Valid()
      ensures entries == Recorded(old(entries), query)
      ensures query in entries
    {
      if query !in entries {
        RecordedBounded(entries, query);
        RecordedDistinct(entries, query);
        entries := [query] + entries;
        if |entries| > Capacity {
          entries := entries[..Capacity];
        }
      }
    }
  }
}

=== FILE: ingestion.dfy ===
/** The document store's ingestion path: file-name sanitising, the binary and
    size guard on the raw upload, the derived metrics of a document, and the
    store update that keeps the last upload under a name. */
module Ingestion {
  import opened Text

  newtype byte = b: int | 0 <= b < 256

  /** 50 MiB: the largest upload accepted. */
  const MaxFileSize: nat := 50 * 1024 * 1024
  /** Only this many leading bytes are scanned for a NUL byte. */
  const NullScanLength: nat := 1024
  /** Sanitised file names are cut to this many characters. */
  const MaxNameLength: nat := 255

  datatype Option<T> = None | Some(value: T)

  function Min(a: nat, b: nat): nat {
    if a <= b then a else b
  }

  // ---------------------------------------------------------------------
  // sanitize_filename

  /** `os.path.basename` (POSIX): everything after the last `/`. */
  function BaseName(path: string): (r: string)
    ensures |r| <= |path|
    decreases |path|
  {
    if |path| == 0 then ""
    else if path[|path| - 1] == '/' then ""
    else BaseName(path[..|path| - 1]) + [path[|path| - 1]]
  }

  /** The base name is the tail of the path after its last `/`: it holds no
      `/`, and it is the whole path or is preceded by a `/`. */
  lemma {:induction false} BaseNameIsTail(path: string)
    ensures var r := BaseName(path);
      && '/' !in r
      && r == path[|path| - |r|..]
      && (|r| < |path| ==> path[|path| - |r| - 1] == '/')
    decreases |path|
  {
    if |path| > 0 && path[|path| - 1] != '/' {
      var init := path[..|path| - 1];
      BaseNameIsTail(init);
      var b := BaseName(init);
      assert init[|init| - |b|..] + [path[|path| - 1]] == path[|path| - |b| - 1..];
    }
  }

  /** A path with no `/` is its own base name. */
  lemma BaseNameOfName(name: string)
    requires '/' !in name
    ensures BaseName(name) == name
  {
    BaseNameIsTail(name);
  }

  /** The characters the pattern `[^\w\-\.]` leaves alone. */
  predicate IsSafeNameChar(c: char) {
    IsWordChar(c) || c == '-' || c == '.'
  }

  /** `re.sub(r'[^\w\-\.]', '_', s)`: every other character becomes `_`. */
  function ReplaceUnsafe(s: string): (r: string)
    ensures |r| == |s|
    ensures forall i :: 0 <= i < |r| ==> IsSafeNameChar(r[i])
  {
    seq(|s|, i requires 0 <= i < |s| => if IsSafeNameChar(s[i]) then s[i] else '_')
  }

  /** Base name, unsafe characters replaced, at most 255 characters kept. */
  function SanitizeFilename(name: string): (r: string)
    ensures |r| <= MaxNameLength
  {
    var safe := ReplaceUnsafe(BaseName(name));
    safe[..Min(|safe|, MaxNameLength)]
  }

  /** The sanitised name is made of word characters, `-` and `.` only, so it
      holds no `/`. */
  lemma SanitizeSafe(name: string)
    ensures forall i :: 0 <= i < |SanitizeFilename(name)| ==> IsSafeNameChar(SanitizeFilename(name)[i])
    ensures '/' !in SanitizeFilename(name)
  {
    var r := SanitizeFilename(name);
    assert !IsSafeNameChar('/');
  }

  /** The sanitised name is the first 255 characters of the base name, each
      kept when safe and replaced by `_` otherwise. */
  lemma SanitizeKeeps(name: string)
    ensures var base := BaseName(name);
      && |SanitizeFilename(name)| == Min(|base|, MaxNameLength)
      && forall i :: 0 <= i < |SanitizeFilename(name)| ==>
           SanitizeFilename(name)[i] == (if IsSafeNameChar(base[i]) then base[i] else '_')
  {
  }

  /** Sanitising a sanitised name changes nothing. */
  lemma SanitizeIdempotent(name: string)
    ensures SanitizeFilename(SanitizeFilename(name)) == SanitizeFilename(name)
  {
    var once := SanitizeFilename(name);
    SanitizeSafe(name);
    BaseNameOfName(once);
    SanitizeKeeps(once);
    var twice := SanitizeFilename(once);
    assert |twice| == |once|;
    forall i | 0 <= i < |once|
      ensures twice[i] == once[i]
    {
      assert IsSafeNameChar(once[i]);
    }
  }

  // ---------------------------------------------------------------------
  // validate_file_content

  /** The outcome of the upload guard; the message texts are not modelled. */
  datatype Verdict = Accepted | TooLarge(size: nat) | NullBytes

  function ValidateFileContent(content: seq<byte>): (v: Verdict)
    ensures v.TooLarge? <==> |content| > MaxFileSize
    ensures v.TooLarge? ==> v.size == |content|
    ensures v.NullBytes? <==>
      |content| <= MaxFileSize &&
      exists i :: 0 <= i < Min(|content|, NullScanLength) && content[i] == 0
    ensures v.Accepted? <==>
      |content| <= MaxFileSize &&
      forall i :: 0 <= i < Min(|content|, NullScanLength) ==> content[i] != 0
  {
    if |content| > MaxFileSize then TooLarge(|content|)
    else if 0 in content[..Min(|content|, NullScanLength)] then NullBytes
    else Accepted
  }

  // ---------------------------------------------------------------------
  // Documents and their metrics

  datatype DocType = Txt | Pdf

  /** A stored document: its text and the metrics derived from it. */
  datatype Doc = Doc(content: string, docType: DocType, size: nat, words: nat, lines: nat)

  /** The record built from extracted text, or nothing when the text is blank
      (`content.strip()` is empty). */
  function MakeDocument(content: string, docType: DocType): (r: Option<Doc>)
    ensures r.Some? <==> !IsBlank(content)
    ensures r.Some? ==> r.value.content == content && r.value.docType == docType
    ensures r.Some? ==> r.value.size == |content|
    ensures r.Some? ==> r.value.lines == Count(content, '\n') + 1
    ensures r.Some? ==> r.value.words == WordEnds(content)
    ensures r.Some? ==> 1 <= r.value.words <= r.value.size
  {
    if IsBlank(content) then None
    else
      TokensEmptyIffBlank(content);
      TokensBounded(content);
      TokensCountWords(content);
      Some(Doc(content, docType, |content|, |Tokens(content)|, |Split(content, '\n')|))
  }

  // ---------------------------------------------------------------------
  // process_uploaded_file and the store update

  datatype Rejection = FileTooLarge(size: nat) | NullBytesFound | PdfUnsupported | EmptyOrUnreadable

  datatype Ingested = Stored(name: string, doc: Doc) | Rejected(reason: Rejection)

  /** `filename.lower().endswith('.pdf')`. */
  predicate IsPdfName(filename: string) {
    var f := Fold(filename);
    |f| >= 4 && f[|f| - 4..] == ".pdf"
  }

  /** One upload: `text` is what decoding (plain text) or page extraction (PDF)
      yields for `raw`, and `pdfSupport` whether a PDF reader is installed. */
  function Ingest(name: string, raw: seq<byte>, pdfSupport: bool, text: string): (r: Ingested)
    ensures |raw| > MaxFileSize ==> r == Rejected(FileTooLarge(|raw|))
    ensures r.Rejected? && r.reason.FileTooLarge? ==> |raw| > MaxFileSize
    ensures r == Rejected(NullBytesFound) <==> ValidateFileContent(raw) == NullBytes
    ensures r == Rejected(PdfUnsupported) <==>
      ValidateFileContent(raw) == Accepted && IsPdfName(SanitizeFilename(name)) && !pdfSupport
    ensures r == Rejected(EmptyOrUnreadable) <==>
      ValidateFileContent(raw) == Accepted && (pdfSupport || !IsPdfName(SanitizeFilename(name))) && IsBlank(text)
    ensures r.Stored? <==>
      ValidateFileContent(raw) == Accepted && (pdfSupport || !IsPdfName(SanitizeFilename(name))) && !IsBlank(text)
    ensures r.Stored? ==>
      && r.name == SanitizeFilename(name)
      && r.doc.content == text
      && (r.doc.docType == Pdf <==> IsPdfName(r.name))
      && r.doc.size == |text|
      && r.doc.words == WordEnds(text)
      && r.doc.lines == Count(text, '\n') + 1
  {
    var filename := SanitizeFilename(name);
    match ValidateFileContent(raw)
    case TooLarge(n) => Rejected(FileTooLarge(n))
    case NullBytes => Rejected(NullBytesFound)
    case Accepted =>
      var isPdf := IsPdfName(filename);
      if isPdf && !pdfSupport then Rejected(PdfUnsupported)
      else
        match MakeDocument(text, if isPdf then Pdf else Txt)
        case None => Rejected(EmptyOrUnreadable)
        case Some(doc) => Stored(filename, doc)
  }

  /** The corpus after one upload: a stored document replaces whatever was
      kept under its sanitised name. */
  function Upload(corpus: map<string, Doc>, name: string, raw: seq<byte>, pdfSupport: bool, text: string): map<string, Doc> {
    match Ingest(name, raw, pdfSupport, text)
    case Stored(filename, doc) => corpus[filename := doc]
    case Rejected(_) => corpus
  }

  /** An oversized file never reaches the corpus. */
  lemma OversizedNotStored(corpus: map<string, Doc>, name: string, raw: seq<byte>, pdfSupport: bool, text: string)
    requires |raw| > MaxFileSize
    ensures Upload(corpus, name, raw, pdfSupport, text) == corpus
  {
  }

  /** An accepted upload is found under its sanitised name with the uploaded
      text; every other entry is kept as it was. */
  lemma UploadLastWriteWins(corpus: map<string, Doc>, name: string, raw: seq<byte>, pdfSupport: bool, text: string)
    requires Ingest(name, raw, pdfSupport, text).Stored?
    ensures var c := Upload(corpus, name, raw, pdfSupport, text);
      && c.Keys == corpus.Keys + {SanitizeFilename(name)}
      && c[SanitizeFilename(name)] == Ingest(name, raw, pdfSupport, text).doc
      && c[SanitizeFilename(name)].content == text
      && forall k :: k in corpus && k != SanitizeFilename(name) ==> c[k] == corpus[k]
  {
  }
}

=== FILE: scenarios.dfy ===
/** Worked searches over small documents, computed through the model. */
module Scenarios {
  import opened Text
  import opened Search

  /** The lower-cased copy of the first scenario's document. */
  lemma FoldHello()
    ensures Fold("Hello HELLO hello") == "hello hello hello"
    ensures Fold("hello") == "hello"
  {
  }

  /** The scan over the lower-cased copy stops at the three words. */
  lemma HelloPositions()
    ensures Occurrences("hello hello hello", "hello", false, 0) == [0, 6, 12]
  {
    var folded := "hello hello hello";
    assert MatchesAt(folded, "hello", 0, false);
    assert !MatchesAt(folded, "hello", 5, false) by { assert folded[5..10][0] == ' '; }
    assert MatchesAt(folded, "hello", 6, false);
    assert !MatchesAt(folded, "hello", 11, false) by { assert folded[11..16][0] == ' '; }
    assert MatchesAt(folded, "hello", 12, false);
    assert Occurrences(folded, "hello", false, 12) == [12];
    assert Occurrences(folded, "hello", false, 11) == [12];
    assert Occurrences(folded, "hello", false, 6) == [6, 12];
    assert Occurrences(folded, "hello", false, 5) == [6, 12];
  }

  /** The three words of the first scenario's document, as written. */
  lemma HelloWords(text: string)
    requires text == "Hello HELLO hello"
    ensures text[0..5] == "Hello" && text[6..11] == "HELLO" && text[12..17] == "hello"
  {
  }

  /** A case-insensitive search for "hello" in "Hello HELLO hello" finds all
      three words and reports each with its own casing. */
  lemma CaseInsensitiveKeepsCasing(text: string)
    requires text == "Hello HELLO hello"
    ensures var ms := FileMatches(text, "hello", false, false, false, 0);
      && |ms| == 3
      && ms[0].exactMatch == "Hello" && ms[1].exactMatch == "HELLO" && ms[2].exactMatch == "hello"
      && ms[0].position == 0 && ms[1].position == 6 && ms[2].position == 12
  {
    FoldHello();
    HelloPositions();
    assert Normalize(text, false) == "hello hello hello";
    assert Normalize("hello", false) == "hello";
    FileMatchesAt(text, "hello", false, false, false, 0, 0);
    FileMatchesAt(text, "hello", false, false, false, 0, 1);
    FileMatchesAt(text, "hello", false, false, false, 0, 2);
    AnnotateText(text, 0, 5, false, 0);
    AnnotateText(text, 6, 5, false, 0);
    AnnotateText(text, 12, 5, false, 0);
    HelloWords(text);
  }

  /** From offset 9 of "cat category cat" the scan finds only the last word. */
  lemma CatLastWord(text: string)
    requires text == "cat category cat"
    ensures Occurrences(text, "cat", true, 9) == [13]
  {
    assert MatchesAt(text, "cat", 13, true);
    assert Occurrences(text, "cat", true, 16) == [];
    assert Occurrences(text, "cat", true, 13) == [13];
    assert text[12..15][0] == ' ' && Occurrences(text, "cat", true, 12) == [13];
    assert text[11..14][0] == 'y' && Occurrences(text, "cat", true, 11) == [13];
    assert text[10..13][0] == 'r' && Occurrences(text, "cat", true, 10) == [13];
    assert text[9..12][0] == 'o';
  }

  /** In "cat category cat" the scan passes over "category": the only
      standalone "cat" from offset 4 on is the last word. */
  lemma CatTail(text: string)
    requires text == "cat category cat"
    ensures Occurrences(text, "cat", true, 4) == [13]
  {
    CatLastWord(text);
    assert text[8..11][0] == 'g' && Occurrences(text, "cat", true, 8) == [13];
    assert text[7..10][0] == 'e' && Occurrences(text, "cat", true, 7) == [13];
    assert text[6..9][0] == 't' && Occurrences(text, "cat", true, 6) == [13];
    assert text[5..8][0] == 'a' && Occurrences(text, "cat", true, 5) == [13];
    assert !MatchesAt(text, "cat", 4, true) by {
      assert !BoundaryAfter(text, 7) by { assert text[7] == 'e' && IsWordChar('e'); }
    }
  }

  /** The whole-word scan of "cat category cat" reports offsets 0 and 13. */
  lemma CatPositions(text: string)
    requires text == "cat category cat"
    ensures Occurrences(text, "cat", true, 0) == [0, 13]
  {
    CatTail(text);
    assert MatchesAt(text, "cat", 0, true);
    assert text[3..6][0] == ' ' && Occurrences(text, "cat", true, 3) == [13];
  }

  /** A whole-word search for "cat" in "cat category cat" finds the two
      standalone words and not the start of "category". */
  lemma WholeWordSkipsLongerWord(text: string)
    requires text == "cat category cat"
    ensures var ms := FileMatches(text, "cat", true, true, false, 0);
      && |ms| == 2 && ms[0].position == 0 && ms[1].position == 13
  {
    CatPositions(text);
    FileMatchesAt(text, "cat", true, true, false, 0, 0);
    FileMatchesAt(text, "cat", true, true, false, 0, 1);
    AnnotateText(text, 0, 3, false, 0);
    AnnotateText(text, 13, 3, false, 0);
  }

  /** In "a\nb\nmatch\n" the only occurrence of "match" is at offset 4. */
  lemma MatchPosition(text: string)
    requires text == "a\nb\nmatch\n"
    ensures Occurrences(text, "match", false, 0) == [4]
  {
    assert Occurrences(text, "match", false, 9) == [];
    assert MatchesAt(text, "match", 4, false);
    assert Occurrences(text, "match", false, 4) == [4];
    assert text[3..8][0] == '\n' && Occurrences(text, "match", false, 3) == [4];
    assert text[2..7][0] == 'b' && Occurrences(text, "match", false, 2) == [4];
    assert text[1..6][0] == '\n' && Occurrences(text, "match", false, 1) == [4];
    assert text[0..5][0] == 'a';
  }

  /** Offset 4 of "a\nb\nmatch\n" follows two newlines, on the line that runs
      from offset 4 to the newline at offset 9. */
  lemma ThirdLineBounds(text: string)
    requires text == "a\nb\nmatch\n"
    ensures Count(text[..4], '\n') == 2
    ensures LineStart(text, 4) == 4 && LineEnd(text, 4) == 9
  {
    assert text[..4] == "a\nb\n";
    assert "a\nb\n"[1..] == "\nb\n";
    assert "\nb\n"[1..] == "b\n";
    assert "b\n"[1..] == "\n";
    assert Find(text, '\n', 9) == 9;
    assert Find(text, '\n', 8) == 9;
    assert Find(text, '\n', 7) == 9;
    assert Find(text, '\n', 6) == 9;
    assert Find(text, '\n', 5) == 9;
  }

  /** Searching "match" in "a\nb\nmatch\n" reports line 3, whose text is "match". */
  lemma LineOfThirdLine(text: string)
    requires text == "a\nb\nmatch\n"
    ensures var ms := FileMatches(text, "match", true, false, false, 0);
      && |ms| == 1 && ms[0].position == 4 && ms[0].line == 3 && ms[0].lineText == "match"
  {
    MatchPosition(text);
    ThirdLineBounds(text);
    FileMatchesAt(text, "match", true, false, false, 0, 0);
    AnnotateText(text, 4, 5, false, 0);
    FieldsAt(text, "match", true, false, false, 0, 0);
    assert text[4..9] == "match";
  }
}

=== FILE: search.dfy ===
/** The search-and-match engine: a literal, optionally case-folded and
    whole-word, left-to-right scan of one document (the match engine), and the
    loop over the selected documents that gathers per-file results and the
    total count (the orchestrator). */
module Search {
  import opened Text
  import opened Ingestion

  /** Longer queries are refused before any document is looked at. */
  const MaxQueryLength: nat := 1000
  const QueryTooLong: string := "Search query too long (max 1000 characters)"
  /** The marker written on both sides of a match inside its context window. */
  const Marker: string := "**"

  /** One occurrence: where it starts, its 1-based line and that line's text,
      the text matched (taken from the original content), the displayed
      context and the length of the match. */
  datatype MatchRecord = MatchRecord(
    position: nat,
    line: nat,
    lineText: string,
    exactMatch: string,
    context: string,
    matchLength: nat)

  /** The matches of one document; only documents with at least one appear. */
  datatype FileResult = FileResult(
    filename: string,
    fileType: DocType,
    matches: seq<MatchRecord>,
    matchCount: nat)

  // ---------------------------------------------------------------------
  // The pattern: an escaped literal, optionally between `(?<!\w)` and `(?!\w)`

  /** `(?<!\w)` at `p`: no word character just before. */
  predicate BoundaryBefore(text: string, p: nat)
    requires p <= |text|
  {
    p == 0 || !IsWordChar(text[p - 1])
  }

  /** `(?!\w)` at `e`: no word character just after. */
  predicate BoundaryAfter(text: string, e: nat)
    requires e <= |text|
  {
    e == |text| || !IsWordChar(text[e])
  }

  /** The pattern built from `pat` matches `text` at offset `p`. */
  predicate MatchesAt(text: string, pat: string, p: nat, wholeWord: bool) {
    && p + |pat| <= |text|
    && text[p..p + |pat|] == pat
    && (wholeWord ==> BoundaryBefore(text, p) && BoundaryAfter(text, p + |pat|))
  }

  /** Some reported match starting before `q` still covers `q`. */
  ghost predicate Overlapped(ps: seq<nat>, n: nat, q: nat) {
    exists i :: 0 <= i < |ps| && ps[i] < q < ps[i] + n
  }

  /** `re.finditer` over a non-empty literal: the leftmost match at or after
      `from`, then the search resumes where that match ends. */
  function Occurrences(text: string, pat: string, wholeWord: bool, from: nat): (ps: seq<nat>)
    requires |pat| > 0 && from <= |text|
    ensures forall i :: 0 <= i < |ps| ==> from <= ps[i] && ps[i] + |pat| <= |text|
    decreases |text| - from
  {
    if from + |pat| > |text| then []
    else if MatchesAt(text, pat, from, wholeWord) then [from] + Occurrences(text, pat, wholeWord, from + |pat|)
    else Occurrences(text, pat, wholeWord, from + 1)
  }

  /** Every reported position is a match of the pattern. */
  lemma {:induction false} OccurrencesMatch(text: string, pat: string, wholeWord: bool, from: nat)
    requires |pat| > 0 && from <= |text|
    ensures forall i :: 0 <= i < |Occurrences(text, pat, wholeWord, from)| ==>
      MatchesAt(text, pat, Occurrences(text, pat, wholeWord, from)[i], wholeWord)
    decreases |text| - from
  {
    if from + |pat| <= |text| {
      if MatchesAt(text, pat, from, wholeWord) {
        OccurrencesMatch(text, pat, wholeWord, from + |pat|);
      } else {
        OccurrencesMatch(text, pat, wholeWord, from + 1);
      }
    }
  }

  /** Positions in increasing order, each at least `n` past the one before. */
  predicate Apart(ps: seq<nat>, n: nat) {
    forall i, j :: 0 <= i < j < |ps| ==> ps[i] + n <= ps[j]
  }

  /** A position at least `n` before every later one keeps a run apart. */
  lemma ApartCons(x: nat, rest: seq<nat>, n: nat)
    requires Apart(rest, n)
    requires forall k :: 0 <= k < |rest| ==> x + n <= rest[k]
    ensures Apart([x] + rest, n)
  {
    var ps := [x] + rest;
    forall i, j | 0 <= i < j < |ps|
      ensures ps[i] + n <= ps[j]
    {
      assert ps[j] == rest[j - 1];
      if i > 0 {
        assert ps[i] == rest[i - 1];
      }
    }
  }

  /** Reported matches come in increasing order and never overlap. */
  lemma {:induction false} OccurrencesDisjoint(text: string, pat: string, wholeWord: bool, from: nat)
    requires |pat| > 0 && from <= |text|
    ensures Apart(Occurrences(text, pat, wholeWord, from), |pat|)
    decreases |text| - from
  {
    if from + |pat| <= |text| {
      if MatchesAt(text, pat, from, wholeWord) {
        OccurrencesDisjoint(text, pat, wholeWord, from + |pat|);
        ApartCons(from, Occurrences(text, pat, wholeWord, from + |pat|), |pat|);
      } else {
        OccurrencesDisjoint(text, pat, wholeWord, from + 1);
      }
    }
  }

  /** Putting a match at `x` in front keeps every position that was reported
      or covered reported or covered. */
  lemma CoveredCons(x: nat, rest: seq<nat>, n: nat, q: nat)
    requires q in rest || Overlapped(rest, n, q)
    ensures q in [x] + rest || Overlapped([x] + rest, n, q)
  {
    if q !in rest {
      var i :| 0 <= i < |rest| && rest[i] < q < rest[i] + n;
      assert ([x] + rest)[i + 1] == rest[i];
    }
  }

  /** No match is missed: every position at or after `from` where the pattern
      matches is reported, unless an earlier reported match already covers it. */
  lemma {:induction false} OccurrencesComplete(text: string, pat: string, wholeWord: bool, from: nat, q: nat)
    requires |pat| > 0 && from <= q && from <= |text|
    requires MatchesAt(text, pat, q, wholeWord)
    ensures q in Occurrences(text, pat, wholeWord, from)
         || Overlapped(Occurrences(text, pat, wholeWord, from), |pat|, q)
    decreases |text| - from
  {
    if MatchesAt(text, pat, from, wholeWord) {
      var rest := Occurrences(text, pat, wholeWord, from + |pat|);
      assert Occurrences(text, pat, wholeWord, from) == [from] + rest;
      if q >= from + |pat| {
        OccurrencesComplete(text, pat, wholeWord, from + |pat|, q);
        CoveredCons(from, rest, |pat|, q);
      } else if q > from {
        assert ([from] + rest)[0] == from;
      }
    } else {
      OccurrencesComplete(text, pat, wholeWord, from + 1, q);
    }
  }

  // ---------------------------------------------------------------------
  // Annotating one match

  /** `max(0, s - radius)`. */
  function ContextStart(s: nat, radius: nat): (cs: nat)
    ensures cs <= s && s - cs <= radius
    ensures cs > 0 ==> s - cs == radius
  {
    if s >= radius then s - radius else 0
  }

  /** `min(len, e + radius)`. */
  function ContextEnd(len: nat, e: nat, radius: nat): (ce: nat)
    ensures ce <= len && ce <= e + radius
    ensures ce < len ==> ce == e + radius
    ensures e <= len ==> e <= ce
  {
    if e + radius <= len then e + radius else len
  }

  /** The context window around `content[s..e]`, clipped to the document, with
      the marker inserted before and after the match. */
  function Highlight(content: string, s: nat, e: nat, radius: nat): (h: string)
    requires s <= e <= |content|
    ensures |h| == ContextEnd(|content|, e, radius) - ContextStart(s, radius) + 2 * |Marker|
    ensures |h| <= (e - s) + 2 * radius + 2 * |Marker|
  {
    var cs := ContextStart(s, radius);
    var ce := ContextEnd(|content|, e, radius);
    var context := content[cs..ce];
    var m := s - cs;
    context[..m] + Marker + context[m..m + (e - s)] + Marker + context[m + (e - s)..]
  }

  /** The highlighted window is the text before the match, the marker, the
      match itself, the marker, and the text after it, all from the document. */
  lemma HighlightShape(content: string, s: nat, e: nat, radius: nat)
    requires s <= e <= |content|
    ensures var cs, ce := ContextStart(s, radius), ContextEnd(|content|, e, radius);
      && cs <= s && e <= ce <= |content|
      && Highlight(content, s, e, radius) == content[cs..s] + Marker + content[s..e] + Marker + content[e..ce]
  {
    var cs, ce := ContextStart(s, radius), ContextEnd(|content|, e, radius);
    WindowParts(content, cs, s, e, ce);
  }

  /** The window `content[cs..ce]` cut at the match `s..e` gives back the
      three slices of the document. */
  lemma WindowParts(content: string, cs: nat, s: nat, e: nat, ce: nat)
    requires cs <= s <= e <= ce <= |content|
    ensures var context, m := content[cs..ce], s - cs;
      && context[..m] == content[cs..s]
      && context[m..m + (e - s)] == content[s..e]
      && context[m + (e - s)..] == content[e..ce]
  {
    var context, m := content[cs..ce], s - cs;
    SliceOfSlice(content, cs, ce, 0, m);
    assert context[..m] == context[0..m];
    SliceOfSlice(content, cs, ce, m, m + (e - s));
    SliceOfSlice(content, cs, ce, m + (e - s), ce - cs);
    assert context[m + (e - s)..] == context[m + (e - s)..ce - cs];
  }

  /** A slice of a slice is a slice of the original, shifted. */
  lemma SliceOfSlice(t: string, i: nat, j: nat, k: nat, l: nat)
    requires i <= j <= |t| && k <= l <= j - i
    ensures t[i..j][k..l] == t[i + k..i + l]
  {
    forall x | 0 <= x < l - k
      ensures t[i..j][k..l][x] == t[i + k..i + l][x]
    {
      assert t[i..j][k..l][x] == t[i..j][k + x] == t[i + k + x];
    }
  }

  /** `content[:s].count('\n') + 1`. */
  function LineNumber(content: string, s: nat): (line: nat)
    requires s <= |content|
    ensures 1 <= line <= s + 1
  {
    Count(content[..s], '\n') + 1
  }

  /** `lines[line - 1] if line <= len(lines) else ""` over `content.split('\n')`. */
  function LineText(content: string, line: nat): string
    requires line >= 1
  {
    var lines := Split(content, '\n');
    if line <= |lines| then lines[line - 1] else ""
  }

  /** The record for a match of length `n` at `s`. */
  function Annotate(content: string, s: nat, n: nat, showContext: bool, radius: nat): (r: MatchRecord)
    requires s + n <= |content|
  {
    var exact := content[s..s + n];
    var ctx := if showContext then Highlight(content, s, s + n, radius) else exact;
    var line := LineNumber(content, s);
    MatchRecord(s, line, LineText(content, line), exact, ctx, |exact|)
  }

  /** The record's match text is the content's own slice at its position. */
  predicate SlicedFrom(content: string, r: MatchRecord) {
    && r.position + r.matchLength <= |content|
    && r.exactMatch == content[r.position..r.position + r.matchLength]
  }

  /** The displayed context is the match alone, or the window clipped to the
      document with the marker on both sides of the match, never longer than
      the match plus twice the radius plus the two markers. */
  predicate ContextFits(content: string, r: MatchRecord, showContext: bool, radius: nat)
    requires SlicedFrom(content, r)
  {
    var s, e := r.position, r.position + r.matchLength;
    && (!showContext ==> r.context == r.exactMatch)
    && (showContext ==>
          && r.context == content[ContextStart(s, radius)..s] + Marker + r.exactMatch
                          + Marker + content[e..ContextEnd(|content|, e, radius)]
          && |r.context| <= r.matchLength + 2 * radius + 2 * |Marker|)
  }

  /** The line number is the count of newlines before the match plus one and
      never runs past the last line; the line text is the newline-free line
      that holds the match. */
  predicate LineFieldsHold(content: string, r: MatchRecord)
    requires r.position <= |content|
  {
    && r.line == Count(content[..r.position], '\n') + 1
    && r.line <= |Split(content, '\n')|
    && r.lineText == content[LineStart(content, r.position)..LineEnd(content, r.position)]
    && '\n' !in r.lineText
  }

  /** The line number of an offset names a piece of `content.split('\n')`,
      and that piece is the text between the newlines around the offset. */
  lemma LineTextAt(content: string, s: nat)
    requires s <= |content|
    ensures 1 <= LineNumber(content, s) <= |Split(content, '\n')|
    ensures LineText(content, LineNumber(content, s)) == content[LineStart(content, s)..LineEnd(content, s)]
  {
    SplitLineAt(content, s);
  }

  /** The line around an offset holds no newline and is bounded by newlines
      or by the ends of the document. */
  lemma LineAround(content: string, s: nat)
    requires s <= |content|
    ensures var a, b := LineStart(content, s), LineEnd(content, s);
      && a <= s <= b <= |content|
      && (a == 0 || content[a - 1] == '\n')
      && (b == |content| || content[b] == '\n')
      && '\n' !in content[a..b]
  {
    LineStartLast(content, s);
    FindFirst(content, '\n', s);
    var a, b := LineStart(content, s), LineEnd(content, s);
    forall k | 0 <= k < b - a
      ensures content[a..b][k] != '\n'
    {
      assert content[a..b][k] == content[a + k];
    }
  }

  /** The line fields of a record: the line text is the piece of
      `content.split('\n')` that holds the match, bounded by newlines or the
      ends of the document. */
  lemma AnnotateLine(content: string, s: nat, n: nat, showContext: bool, radius: nat)
    requires s + n <= |content|
    ensures var r := Annotate(content, s, n, showContext, radius);
      && 1 <= r.line
      && LineFieldsHold(content, r)
      && var a, b := LineStart(content, s), LineEnd(content, s);
      && a <= s <= b
      && (a == 0 || content[a - 1] == '\n')
      && (b == |content| || content[b] == '\n')
  {
    var r := Annotate(content, s, n, showContext, radius);
    assert r.position == s && r.line == LineNumber(content, s) && r.lineText == LineText(content, r.line);
    LineTextAt(content, s);
    LineAround(content, s);
  }

  /** The record keeps the original text of the match, and the displayed
      context is either that text alone or the clipped, marked window. */
  lemma AnnotateText(content: string, s: nat, n: nat, showContext: bool, radius: nat)
    requires s + n <= |content|
    ensures var r := Annotate(content, s, n, showContext, radius);
      && r.position == s && r.matchLength == n
      && SlicedFrom(content, r)
      && ContextFits(content, r, showContext, radius)
  {
    AnnotateFields(content, s, n, showContext, radius);
    ContextFitsOf(content, Annotate(content, s, n, showContext, radius), s, n, showContext, radius);
  }

  /** The match fields of a record, without its line fields. */
  lemma AnnotateFields(content: string, s: nat, n: nat, showContext: bool, radius: nat)
    requires s + n <= |content|
    ensures var r := Annotate(content, s, n, showContext, radius);
      && r.position == s && r.matchLength == n
      && SlicedFrom(content, r)
      && (showContext ==> r.context == Highlight(content, s, s + n, radius))
      && (!showContext ==> r.context == r.exactMatch)
  {
    var exact := content[s..s + n];
    assert |exact| == n;
  }

  /** A record for the match `content[s..s + n]` whose context is the
      highlighted window (or the bare match) fits the window. */
  lemma ContextFitsOf(content: string, r: MatchRecord, s: nat, n: nat, showContext: bool, radius: nat)
    requires s + n <= |content|
    requires r.position == s && r.matchLength == n
    requires SlicedFrom(content, r)
    requires showContext ==> r.context == Highlight(content, s, s + n, radius)
    requires !showContext ==> r.context == r.exactMatch
    ensures ContextFits(content, r, showContext, radius)
  {
    if showContext {
      HighlightFits(content, r, radius);
    }
  }

  /** A record whose context is the highlighted window around its match fits
      the window. */
  lemma HighlightFits(content: string, r: MatchRecord, radius: nat)
    requires SlicedFrom(content, r)
    requires r.context == Highlight(content, r.position, r.position + r.matchLength, radius)
    ensures ContextFits(content, r, true, radius)
  {
    var s, e := r.position, r.position + r.matchLength;
    HighlightShape(content, s, e, radius);
    assert r.context == content[ContextStart(s, radius)..s] + Marker + r.exactMatch
                        + Marker + content[e..ContextEnd(|content|, e, radius)];
  }

  // ---------------------------------------------------------------------
  // One document

  /** A string as the search compares it: unchanged when case-sensitive,
      otherwise its lower-cased copy. Both the content and the query go
      through it. */
  function Normalize(s: string, caseSensitive: bool): (t: string)
    ensures |t| == |s|
  {
    if caseSensitive then s else Fold(s)
  }

  /** One record per reported position, in order. */
  function Annotated(content: string, ps: seq<nat>, n: nat, showContext: bool, radius: nat): (ms: seq<MatchRecord>)
    requires forall k :: 0 <= k < |ps| ==> ps[k] + n <= |content|
    ensures |ms| == |ps|
  {
    seq(|ps|, i requires 0 <= i < |ps| => Annotate(content, ps[i], n, showContext, radius))
  }

  /** The match records of one document, in the order the scan finds them. */
  function FileMatches(content: string, query: string, caseSensitive: bool, wholeWord: bool,
                       showContext: bool, radius: nat): seq<MatchRecord>
    requires |query| > 0
  {
    var pat := Normalize(query, caseSensitive);
    Annotated(content, Occurrences(Normalize(content, caseSensitive), pat, wholeWord, 0), |pat|, showContext, radius)
  }

  /** The per-match loop: one record per position the scan reports. */
  method AnnotateMatches(content: string, matches: seq<nat>, n: nat, showContext: bool, radius: nat)
    returns (fileMatches: seq<MatchRecord>)
    requires forall k :: 0 <= k < |matches| ==> matches[k] + n <= |content|
    ensures fileMatches == Annotated(content, matches, n, showContext, radius)
  {
    fileMatches := [];
    var i := 0;
    while i < |matches|
      invariant 0 <= i <= |matches|
      invariant fileMatches == Annotated(content, matches[..i], n, showContext, radius)
    {
      var record := Annotate(content, matches[i], n, showContext, radius);
      AnnotatedSnoc(content, matches[..i], matches[i], n, showContext, radius);
      assert matches[..i + 1] == matches[..i] + [matches[i]];
      fileMatches := fileMatches + [record];
      i := i + 1;
    }
    assert matches[..i] == matches;
  }

  /** Annotating one more position appends its record. */
  lemma AnnotatedSnoc(content: string, ps: seq<nat>, p: nat, n: nat, showContext: bool, radius: nat)
    requires forall k :: 0 <= k < |ps| ==> ps[k] + n <= |content|
    requires p + n <= |content|
    ensures Annotated(content, ps + [p], n, showContext, radius)
         == Annotated(content, ps, n, showContext, radius) + [Annotate(content, p, n, showContext, radius)]
  {
    var qs := ps + [p];
    assert forall k :: 0 <= k < |ps| ==> qs[k] == ps[k];
  }

  /** The match engine for one document: the pattern, the scan, then one
      record per match. */
  method ScanDocument(content: string, query: string, caseSensitive: bool, wholeWord: bool,
                      showContext: bool, radius: nat) returns (fileMatches: seq<MatchRecord>)
    requires |query| > 0
    ensures fileMatches == FileMatches(content, query, caseSensitive, wholeWord, showContext, radius)
  {
    var searchText := Normalize(content, caseSensitive);
    var pat := Normalize(query, caseSensitive);
    var matches := Occurrences(searchText, pat, wholeWord, 0);
    fileMatches := AnnotateMatches(content, matches, |pat|, showContext, radius);
  }

  /** The `i`-th record annotates the `i`-th position the scan reports. */
  lemma FileMatchesAt(content: string, query: string, caseSensitive: bool, wholeWord: bool,
                      showContext: bool, radius: nat, i: nat)
    requires |query| > 0
    ensures var ps := Occurrences(Normalize(content, caseSensitive), Normalize(query, caseSensitive), wholeWord, 0);
      var ms := FileMatches(content, query, caseSensitive, wholeWord, showContext, radius);
      && |ms| == |ps|
      && (i < |ms| ==> ps[i] + |query| <= |content| && ms[i] == Annotate(content, ps[i], |query|, showContext, radius))
  {
  }

  /** Case folding and word boundaries commute: the boundary test on the
      lower-cased copy is the boundary test on the original. */
  lemma FoldBoundaries(content: string, s: nat, e: nat)
    requires s <= e <= |content|
    ensures BoundaryBefore(Fold(content), s) == BoundaryBefore(content, s)
    ensures BoundaryAfter(Fold(content), e) == BoundaryAfter(content, e)
  {
  }

  /** The pattern matches the searched text at `q` exactly when the original
      text there is the query (case-sensitive) or folds to the folded query,
      and, for whole words, the original text has no word character on
      either side. */
  lemma MatchesAtOriginal(content: string, query: string, caseSensitive: bool, wholeWord: bool, q: nat)
    requires q + |query| <= |content|
    ensures MatchesAt(Normalize(content, caseSensitive), Normalize(query, caseSensitive), q, wholeWord)
        <==> && (caseSensitive ==> content[q..q + |query|] == query)
             && (!caseSensitive ==> Fold(content[q..q + |query|]) == Fold(query))
             && (wholeWord ==> BoundaryBefore(content, q) && BoundaryAfter(content, q + |query|))
  {
    if !caseSensitive {
      var t, pat := Fold(content), Fold(query);
      assert Normalize(content, caseSensitive) == t && Normalize(query, caseSensitive) == pat;
      assert |pat| == |query|;
      FoldSlice(content, q, q + |query|);
      FoldBoundaries(content, q, q + |query|);
    }
  }

  /** What a reported match at `q` says about the original content. */
  lemma ReportedMatch(content: string, query: string, caseSensitive: bool, wholeWord: bool, q: nat)
    requires |query| > 0 && q + |query| <= |content|
    requires MatchesAt(Normalize(content, caseSensitive), Normalize(query, caseSensitive), q, wholeWord)
    ensures Fold(content[q..q + |query|]) == Fold(query)
    ensures caseSensitive ==> content[q..q + |query|] == query
    ensures wholeWord ==> BoundaryBefore(content, q) && BoundaryAfter(content, q + |query|)
  {
    MatchesAtOriginal(content, query, caseSensitive, wholeWord, q);
  }

  /** A record of a literal occurrence of the query in the original content:
      its text is the content's own slice (original casing), it folds to the
      folded query and is the query itself in case-sensitive mode, and with
      whole-word matching no word character touches it. */
  predicate LiteralOccurrence(content: string, query: string, caseSensitive: bool, wholeWord: bool,
                              r: MatchRecord)
  {
    && r.matchLength == |query|
    && SlicedFrom(content, r)
    && Fold(r.exactMatch) == Fold(query)
    && (caseSensitive ==> r.exactMatch == query)
    && (wholeWord ==> BoundaryBefore(content, r.position) && BoundaryAfter(content, r.position + r.matchLength))
  }

  /** The record of a reported match is a literal occurrence of the query. */
  lemma AnnotateLiteral(content: string, query: string, caseSensitive: bool, wholeWord: bool,
                        showContext: bool, radius: nat, q: nat)
    requires |query| > 0 && q + |query| <= |content|
    requires MatchesAt(Normalize(content, caseSensitive), Normalize(query, caseSensitive), q, wholeWord)
    ensures LiteralOccurrence(content, query, caseSensitive, wholeWord, Annotate(content, q, |query|, showContext, radius))
  {
    AnnotateText(content, q, |query|, showContext, radius);
    ReportedMatch(content, query, caseSensitive, wholeWord, q);
  }

  /** The `i`-th record is a literal occurrence of the query. */
  lemma LiteralAt(content: string, query: string, caseSensitive: bool, wholeWord: bool,
                  showContext: bool, radius: nat, i: nat)
    requires |query| > 0 && i < |FileMatches(content, query, caseSensitive, wholeWord, showContext, radius)|
    ensures LiteralOccurrence(content, query, caseSensitive, wholeWord,
                              FileMatches(content, query, caseSensitive, wholeWord, showContext, radius)[i])
  {
    var text := Normalize(content, caseSensitive);
    var pat := Normalize(query, caseSensitive);
    var ps := Occurrences(text, pat, wholeWord, 0);
    FileMatchesAt(content, query, caseSensitive, wholeWord, showContext, radius, i);
    OccurrencesMatch(text, pat, wholeWord, 0);
    AnnotateLiteral(content, query, caseSensitive, wholeWord, showContext, radius, ps[i]);
  }

  /** Every record is a literal occurrence of the query in the original content. */
  lemma FileMatchesLiteral(content: string, query: string, caseSensitive: bool, wholeWord: bool,
                           showContext: bool, radius: nat)
    requires |query| > 0
    ensures forall r :: r in FileMatches(content, query, caseSensitive, wholeWord, showContext, radius) ==>
      LiteralOccurrence(content, query, caseSensitive, wholeWord, r)
  {
    var ms := FileMatches(content, query, caseSensitive, wholeWord, showContext, radius);
    forall r | r in ms
      ensures LiteralOccurrence(content, query, caseSensitive, wholeWord, r)
    {
      var i :| 0 <= i < |ms| && ms[i] == r;
      LiteralAt(content, query, caseSensitive, wholeWord, showContext, radius, i);
    }
  }

  /** Records in increasing order of position, none overlapping the next. */
  predicate InOrder(ms: seq<MatchRecord>) {
    forall i, j :: 0 <= i < j < |ms| ==> ms[i].position + ms[i].matchLength <= ms[j].position
  }

  /** Records are in increasing order of position and do not overlap. */
  lemma FileMatchesOrdered(content: string, query: string, caseSensitive: bool, wholeWord: bool,
                           showContext: bool, radius: nat)
    requires |query| > 0
    ensures InOrder(FileMatches(content, query, caseSensitive, wholeWord, showContext, radius))
  {
    var text := Normalize(content, caseSensitive);
    var pat := Normalize(query, caseSensitive);
    var ps := Occurrences(text, pat, wholeWord, 0);
    var ms := FileMatches(content, query, caseSensitive, wholeWord, showContext, radius);
    OccurrencesDisjoint(text, pat, wholeWord, 0);
    forall i, j | 0 <= i < j < |ms|
      ensures ms[i].position + ms[i].matchLength <= ms[j].position
    {
      FileMatchesAt(content, query, caseSensitive, wholeWord, showContext, radius, i);
      FileMatchesAt(content, query, caseSensitive, wholeWord, showContext, radius, j);
      AnnotateText(content, ps[i], |query|, showContext, radius);
      AnnotateText(content, ps[j], |query|, showContext, radius);
    }
  }

  /** Every occurrence of the query in the original content (under the chosen
      case and word rules) is reported or lies inside a reported match. */
  lemma FileMatchesComplete(content: string, query: string, caseSensitive: bool, wholeWord: bool,
                            showContext: bool, radius: nat, q: nat)
    requires |query| > 0 && q + |query| <= |content|
    requires caseSensitive ==> content[q..q + |query|] == query
    requires !caseSensitive ==> Fold(content[q..q + |query|]) == Fold(query)
    requires wholeWord ==> BoundaryBefore(content, q) && BoundaryAfter(content, q + |query|)
    ensures exists r :: && r in FileMatches(content, query, caseSensitive, wholeWord, showContext, radius)
                        && r.position <= q < r.position + r.matchLength
  {
    var text := Normalize(content, caseSensitive);
    var pat := Normalize(query, caseSensitive);
    var ps := Occurrences(text, pat, wholeWord, 0);
    var ms := FileMatches(content, query, caseSensitive, wholeWord, showContext, radius);
    MatchesAtOriginal(content, query, caseSensitive, wholeWord, q);
    OccurrencesComplete(text, pat, wholeWord, 0, q);
    var i :| 0 <= i < |ps| && ps[i] <= q < ps[i] + |pat|;
    FileMatchesAt(content, query, caseSensitive, wholeWord, showContext, radius, i);
    AnnotateText(content, ps[i], |pat|, showContext, radius);
    assert ms[i] in ms;
  }

  /** A record whose slice, context window and line fields all agree with
      the content. */
  predicate FieldsHold(content: string, r: MatchRecord, showContext: bool, radius: nat) {
    && SlicedFrom(content, r)
    && ContextFits(content, r, showContext, radius)
    && LineFieldsHold(content, r)
  }

  /** The `i`-th record's context and line fields. */
  lemma FieldsAt(content: string, query: string, caseSensitive: bool, wholeWord: bool,
                 showContext: bool, radius: nat, i: nat)
    requires |query| > 0 && i < |FileMatches(content, query, caseSensitive, wholeWord, showContext, radius)|
    ensures FieldsHold(content, FileMatches(content, query, caseSensitive, wholeWord, showContext, radius)[i],
                       showContext, radius)
  {
    var ps := Occurrences(Normalize(content, caseSensitive), Normalize(query, caseSensitive), wholeWord, 0);
    FileMatchesAt(content, query, caseSensitive, wholeWord, showContext, radius, i);
    AnnotateText(content, ps[i], |query|, showContext, radius);
    AnnotateLine(content, ps[i], |query|, showContext, radius);
  }

  /** The context and the line fields of every record. */
  lemma FileMatchesFields(content: string, query: string, caseSensitive: bool, wholeWord: bool,
                          showContext: bool, radius: nat)
    requires |query| > 0
    ensures forall r :: r in FileMatches(content, query, caseSensitive, wholeWord, showContext, radius) ==>
      FieldsHold(content, r, showContext, radius)
  {
    var ms := FileMatches(content, query, caseSensitive, wholeWord, showContext, radius);
    forall r | r in ms
      ensures FieldsHold(content, r, showContext, radius)
    {
      var i :| 0 <= i < |ms| && ms[i] == r;
      FieldsAt(content, query, caseSensitive, wholeWord, showContext, radius, i);
    }
  }

  // ---------------------------------------------------------------------
  // The orchestrator

  /** The result entry a single name contributes: none when the name is not in
      the corpus or its document has no match. */
  function EntryFor(corpus: map<string, Doc>, filename: string, query: string, caseSensitive: bool,
                    wholeWord: bool, showContext: bool, radius: nat): seq<FileResult>
    requires |query| > 0
  {
    if filename !in corpus then []
    else
      var doc := corpus[filename];
      var ms := FileMatches(doc.content, query, caseSensitive, wholeWord, showContext, radius);
      if |ms| == 0 then [] else [FileResult(filename, doc.docType, ms, |ms|)]
  }

  /** The entries of all names, in the order the names are given. */
  function SearchAll(corpus: map<string, Doc>, names: seq<string>, query: string, caseSensitive: bool,
                     wholeWord: bool, showContext: bool, radius: nat): seq<FileResult>
    requires |query| > 0
    decreases |names|
  {
    if |names| == 0 then []
    else SearchAll(corpus, names[..|names| - 1], query, caseSensitive, wholeWord, showContext, radius)
         + EntryFor(corpus, names[|names| - 1], query, caseSensitive, wholeWord, showContext, radius)
  }

  /** The sum of the per-file match counts. */
  function TotalMatches(results: seq<FileResult>): nat {
    if |results| == 0 then 0
    else TotalMatches(results[..|results| - 1]) + results[|results| - 1].matchCount
  }

  /** `perform_search_enhanced`: `(results, total, error)` over the documents
      named in `searchIn`, looked up in `corpus`. */
  method PerformSearch(corpus: map<string, Doc>, query: string, searchIn: seq<string>,
                       caseSensitive: bool, wholeWord: bool, showContext: bool, contextChars: nat)
    returns (results: seq<FileResult>, total: nat, error: string)
    requires |query| > 0
    ensures |query| > MaxQueryLength ==> results == [] && total == 0 && error == QueryTooLong
    ensures |query| <= MaxQueryLength ==>
      && error == ""
      && results == SearchAll(corpus, searchIn, query, caseSensitive, wholeWord, showContext, contextChars)
      && total == TotalMatches(results)
  {
    if |query| > MaxQueryLength {
      return [], 0, QueryTooLong;
    }
    results, total := [], 0;
    var i := 0;
    while i < |searchIn|
      invariant 0 <= i <= |searchIn|
      invariant results == SearchAll(corpus, searchIn[..i], query, caseSensitive, wholeWord, showContext, contextChars)
      invariant total == TotalMatches(results)
    {
      var filename := searchIn[i];
      if filename in corpus {
        var doc := corpus[filename];
        var fileMatches := ScanDocument(doc.content, query, caseSensitive, wholeWord, showContext, contextChars);
        if |fileMatches| > 0 {
          results := results + [FileResult(filename, doc.docType, fileMatches, |fileMatches|)];
          total := total + |fileMatches|;
        }
      }
      assert searchIn[..i + 1][..i] == searchIn[..i];
      i := i + 1;
    }
    assert searchIn[..i] == searchIn;
    error := "";
  }

  /** `r` names a document of the corpus that was asked for, holds that
      document's matches and type, and counts them; it is not empty. */
  predicate EntryHolds(corpus: map<string, Doc>, names: seq<string>, r: FileResult, query: string,
                       caseSensitive: bool, wholeWord: bool, showContext: bool, radius: nat)
    requires |query| > 0
  {
    && r.filename in corpus
    && r.filename in names
    && r.fileType == corpus[r.filename].docType
    && r.matches == FileMatches(corpus[r.filename].content, query, caseSensitive, wholeWord, showContext, radius)
    && r.matchCount == |r.matches| > 0
  }

  /** Every entry names a document of the corpus that was asked for, holds that
      document's matches and type, and counts them; none is empty. */
  lemma {:induction false} SearchAllEntries(corpus: map<string, Doc>, names: seq<string>, query: string,
                                            caseSensitive: bool, wholeWord: bool, showContext: bool, radius: nat)
    requires |query| > 0
    ensures forall r :: r in SearchAll(corpus, names, query, caseSensitive, wholeWord, showContext, radius) ==>
      EntryHolds(corpus, names, r, query, caseSensitive, wholeWord, showContext, radius)
    decreases |names|
  {
    if |names| > 0 {
      var init, last := names[..|names| - 1], names[|names| - 1];
      var front := SearchAll(corpus, init, query, caseSensitive, wholeWord, showContext, radius);
      var entry := EntryFor(corpus, last, query, caseSensitive, wholeWord, showContext, radius);
      var rs := SearchAll(corpus, names, query, caseSensitive, wholeWord, showContext, radius);
      SearchAllEntries(corpus, init, query, caseSensitive, wholeWord, showContext, radius);
      assert rs == front + entry;
      assert names == init + [last];
      forall r | r in rs
        ensures EntryHolds(corpus, names, r, query, caseSensitive, wholeWord, showContext, radius)
      {
        if r in front {
          assert EntryHolds(corpus, init, r, query, caseSensitive, wholeWord, showContext, radius);
        } else {
          assert r in entry;
        }
      }
    }
  }

  /** Every name that is in the corpus and whose document has a match gets an entry. */
  lemma {:induction false} SearchAllComplete(corpus: map<string, Doc>, names: seq<string>, query: string,
                                             caseSensitive: bool, wholeWord: bool, showContext: bool, radius: nat,
                                             filename: string)
    requires |query| > 0
    requires filename in names && filename in corpus
    requires |FileMatches(corpus[filename].content, query, caseSensitive, wholeWord, showContext, radius)| > 0
    ensures exists r :: && r in SearchAll(corpus, names, query, caseSensitive, wholeWord, showContext, radius)
                        && r.filename == filename
    decreases |names|
  {
    var rs := SearchAll(corpus, names, query, caseSensitive, wholeWord, showContext, radius);
    var last := names[|names| - 1];
    var init := names[..|names| - 1];
    var front := SearchAll(corpus, init, query, caseSensitive, wholeWord, showContext, radius);
    assert rs == front + EntryFor(corpus, last, query, caseSensitive, wholeWord, showContext, radius);
    if last == filename {
      var ms := FileMatches(corpus[filename].content, query, caseSensitive, wholeWord, showContext, radius);
      assert EntryFor(corpus, last, query, caseSensitive, wholeWord, showContext, radius)
        == [FileResult(filename, corpus[filename].docType, ms, |ms|)];
      assert rs[|front|] in rs;
    } else {
      assert names == init + [last];
      assert filename in init;
      SearchAllComplete(corpus, init, query, caseSensitive, wholeWord, showContext, radius, filename);
      var r :| r in front && r.filename == filename;
      assert r in rs;
    }
  }

  /** Searching an empty corpus finds nothing. */
  lemma {:induction false} SearchAllEmptyCorpus(names: seq<string>, query: string, caseSensitive: bool,
                                                wholeWord: bool, showContext: bool, radius: nat)
    requires |query| > 0
    ensures SearchAll(map[], names, query, caseSensitive, wholeWord, showContext, radius) == []
    ensures TotalMatches(SearchAll(map[], names, query, caseSensitive, wholeWord, showContext, radius)) == 0
    decreases |names|
  {
    if |names| > 0 {
      SearchAllEmptyCorpus(names[..|names| - 1], query, caseSensitive, wholeWord, showContext, radius);
    }
  }

  /** The total is the number of match records over all entries. */
  lemma {:induction false} TotalCountsRecords(results: seq<FileResult>)
    requires forall k :: 0 <= k < |results| ==> results[k].matchCount == |results[k].matches|
    ensures TotalMatches(results) == |Records(results)|
    decreases |results|
  {
    if |results| > 0 {
      TotalCountsRecords(results[..|results| - 1]);
    }
  }

  /** All match records, file after file. */
  function Records(results: seq<FileResult>): seq<MatchRecord> {
    if |results| == 0 then []
    else Records(results[..|results| - 1]) + results[|results| - 1].matches
  }

  /** The total a search reports is the number of match records it returns. */
  lemma SearchTotal(corpus: map<string, Doc>, names: seq<string>, query: string, caseSensitive: bool,
                    wholeWord: bool, showContext: bool, radius: nat)
    requires |query| > 0
    ensures TotalMatches(SearchAll(corpus, names, query, caseSensitive, wholeWord, showContext, radius))
         == |Records(SearchAll(corpus, names, query, caseSensitive, wholeWord, showContext, radius))|
  {
    var rs := SearchAll(corpus, names, query, caseSensitive, wholeWord, showContext, radius);
    SearchAllEntries(corpus, names, query, caseSensitive, wholeWord, showContext, radius);
    forall k | 0 <= k < |rs|
      ensures rs[k].matchCount == |rs[k].matches|
    {
      assert rs[k] in rs;
    }
    TotalCountsRecords(rs);
  }
}

=== FILE: text.dfy ===
/** Character classes and string helpers shared by the document store and the
    search engine: Python's whitespace set, the `\w` word class, lower-casing,
    `str.count`, `str.split(sep)`, `sep.join(...)`, `str.split()` and the
    line that contains a given offset. */
module Text {

  /** The characters Python's `str.split()` and `str.strip()` treat as whitespace. */
  predicate IsSpace(c: char) {
    || ('\t' <= c <= '\r')
    || ('\U{1c}' <= c <= ' ')
    || c == '\U{85}' || c == '\U{a0}' || c == '\U{1680}'
    || ('\U{2000}' <= c <= '\U{200a}')
    || c == '\U{2028}' || c == '\U{2029}' || c == '\U{202f}' || c == '\U{205f}' || c == '\U{3000}'
  }

  /** The regular-expression class `\w`, restricted to ASCII. */
  predicate IsWordChar(c: char) {
    ('a' <= c <= 'z') || ('A' <= c <= 'Z') || ('0' <= c <= '9') || c == '_'
  }

  /** Lower-casing of one character, restricted to ASCII; one character in, one out. */
  function Lower(c: char): (r: char)
    ensures IsWordChar(r) <==> IsWordChar(c)
    ensures !('A' <= r <= 'Z')
    ensures 'A' <= c <= 'Z' ==> 'a' <= r <= 'z' && r as int - 'a' as int == c as int - 'A' as int
    ensures !('A' <= c <= 'Z') ==> r == c
  {
    if 'A' <= c <= 'Z' then (c as int + 32) as char else c
  }

  /** `str.lower()`: the per-character fold, so it preserves length and offsets. */
  function Fold(s: string): (r: string)
    ensures |r| == |s|
    ensures forall i :: 0 <= i < |s| ==> r[i] == Lower(s[i])
  {
    seq(|s|, i requires 0 <= i < |s| => Lower(s[i]))
  }

  /** Two characters that are equal apart from ASCII case: the same
      character, or a capital and its own small letter. */
  predicate CaseAlike(x: char, y: char) {
    || x == y
    || ('A' <= x <= 'Z' && y as int == x as int + 32)
    || ('A' <= y <= 'Z' && x as int == y as int + 32)
  }

  /** Lower-casing identifies two characters exactly when they are alike up to case. */
  lemma LowerAlike(x: char, y: char)
    ensures Lower(x) == Lower(y) <==> CaseAlike(x, y)
  {
  }

  /** Two strings lower-case to the same string exactly when they have the
      same length and agree character by character up to case: what
      `a.lower() == b.lower()` means for ASCII text. */
  lemma FoldAlike(a: string, b: string)
    ensures Fold(a) == Fold(b) <==>
      |a| == |b| && forall i :: 0 <= i < |a| ==> CaseAlike(a[i], b[i])
  {
    if Fold(a) == Fold(b) {
      forall i | 0 <= i < |a|
        ensures CaseAlike(a[i], b[i])
      {
        assert Fold(a)[i] == Fold(b)[i];
        LowerAlike(a[i], b[i]);
      }
    }
    if |a| == |b| && forall i :: 0 <= i < |a| ==> CaseAlike(a[i], b[i]) {
      forall i | 0 <= i < |a|
        ensures Fold(a)[i] == Fold(b)[i]
      {
        LowerAlike(a[i], b[i]);
      }
    }
  }

  lemma FoldSlice(s: string, a: nat, b: nat)
    requires a <= b <= |s|
    ensures Fold(s)[a..b] == Fold(s[a..b])
  {
    assert forall i :: 0 <= i < b - a ==> Fold(s)[a..b][i] == Lower(s[a + i]) == Fold(s[a..b])[i];
  }

  /** `s.count(c)` for a one-character needle. */
  function Count(s: string, c: char): (r: nat)
    ensures r <= |s|
  {
    if |s| == 0 then 0
    else (if s[0] == c then 1 else 0) + Count(s[1..], c)
  }

  lemma {:induction false} CountZero(s: string, c: char)
    requires forall i :: 0 <= i < |s| ==> s[i] != c
    ensures Count(s, c) == 0
    decreases |s|
  {
    if |s| > 0 {
      CountZero(s[1..], c);
    }
  }

  lemma {:induction false} CountAppend(a: string, b: string, c: char)
    ensures Count(a + b, c) == Count(a, c) + Count(b, c)
    decreases |a|
  {
    if |a| == 0 {
      assert a + b == b;
    } else {
      assert (a + b)[1..] == a[1..] + b;
      CountAppend(a[1..], b, c);
    }
  }

  lemma CountPrefix(s: string, p: nat, c: char)
    requires p <= |s|
    ensures Count(s[..p], c) <= Count(s, c)
  {
    assert s == s[..p] + s[p..];
    CountAppend(s[..p], s[p..], c);
  }

  /** The first index at or after `from` that holds `c`, or `|s|` when there is none. */
  function Find(s: string, c: char, from: nat): (j: nat)
    requires from <= |s|
    ensures from <= j <= |s|
    ensures j < |s| ==> s[j] == c
    decreases |s| - from
  {
    if from == |s| then |s|
    else if s[from] == c then from
    else Find(s, c, from + 1)
  }

  /** No occurrence of `c` is skipped by Find. */
  lemma {:induction false} FindFirst(s: string, c: char, from: nat)
    requires from <= |s|
    ensures forall k :: from <= k < Find(s, c, from) ==> s[k] != c
    decreases |s| - from
  {
    if from < |s| && s[from] != c {
      FindFirst(s, c, from + 1);
    }
  }

  /** `s.split(sep)`: the pieces between separators; always at least one piece. */
  function Split(s: string, sep: char): (r: seq<string>)
    ensures |r| == Count(s, sep) + 1
    decreases |s|
  {
    var j := Find(s, sep, 0);
    FindFirst(s, sep, 0);
    CountZero(s[..j], sep);
    if j == |s| then
      assert s[..j] == s;
      [s]
    else
      assert s == s[..j] + [sep] + s[j + 1..];
      CountAppend(s[..j] + [sep], s[j + 1..], sep);
      CountAppend(s[..j], [sep], sep);
      [s[..j]] + Split(s[j + 1..], sep)
  }

  /** `sep.join(parts)`. */
  function Join(parts: seq<string>, sep: char): string {
    if |parts| == 0 then ""
    else if |parts| == 1 then parts[0]
    else parts[0] + [sep] + Join(parts[1..], sep)
  }

  /** Joining the pieces of a split with the same separator gives the text back. */
  lemma {:induction false} JoinSplit(s: string, sep: char)
    ensures Join(Split(s, sep), sep) == s
    decreases |s|
  {
    var j := Find(s, sep, 0);
    if j < |s| {
      JoinSplit(s[j + 1..], sep);
      assert s == s[..j] + [sep] + s[j + 1..];
    }
  }

  /** Splitting a join of separator-free pieces gives the pieces back. */
  lemma {:induction false} SplitJoin(parts: seq<string>, sep: char)
    requires |parts| > 0
    requires forall k :: 0 <= k < |parts| ==> sep !in parts[k]
    ensures Split(Join(parts, sep), sep) == parts
    decreases |parts|
  {
    var s := Join(parts, sep);
    var p := parts[0];
    if |parts| == 1 {
      assert Find(s, sep, 0) == |s| by {
        FindUnique(s, sep, 0, |s|);
      }
      SplitStep(s, sep);
    } else {
      var rest := Join(parts[1..], sep);
      assert Find(s, sep, 0) == |p| && s[..|p|] == p && s[|p| + 1..] == rest by {
        assert s == p + [sep] + rest;
        FindUnique(s, sep, 0, |p|);
      }
      SplitStep(s, sep);
      SplitJoin(parts[1..], sep);
      assert parts == [p] + parts[1..];
    }
  }

  /** The offset just after the last newline before `p`, or 0 when there is none. */
  function LineStart(s: string, p: nat): (l: nat)
    requires p <= |s|
    ensures l <= p
    ensures l == 0 || s[l - 1] == '\n'
  {
    if p == 0 then 0
    else if s[p - 1] == '\n' then p
    else LineStart(s, p - 1)
  }

  /** No newline lies between LineStart and the offset. */
  lemma {:induction false} LineStartLast(s: string, p: nat)
    requires p <= |s|
    ensures forall k :: LineStart(s, p) <= k < p ==> s[k] != '\n'
  {
    if p > 0 && s[p - 1] != '\n' {
      LineStartLast(s, p - 1);
    }
  }

  /** The offset of the first newline at or after `p`, or `|s|` when there is none. */
  function LineEnd(s: string, p: nat): (e: nat)
    requires p <= |s|
    ensures p <= e <= |s|
  {
    Find(s, '\n', p)
  }

  /** Two offsets with the defining property of LineStart are the same offset. */
  lemma LineStartUnique(s: string, p: nat, l: nat)
    requires l <= p <= |s|
    requires l == 0 || s[l - 1] == '\n'
    requires forall k :: l <= k < p ==> s[k] != '\n'
    ensures LineStart(s, p) == l
  {
    LineStartLast(s, p);
  }

  /** Two offsets with the defining property of Find are the same offset. */
  lemma FindUnique(s: string, c: char, from: nat, e: nat)
    requires from <= e <= |s|
    requires e == |s| || s[e] == c
    requires forall k :: from <= k < e ==> s[k] != c
    ensures Find(s, c, from) == e
  {
    FindFirst(s, c, from);
  }

  /** One step of Split: the piece before the first separator, then the rest. */
  lemma SplitStep(s: string, sep: char)
    ensures Find(s, sep, 0) == |s| ==> Split(s, sep) == [s]
    ensures Find(s, sep, 0) < |s| ==>
      Split(s, sep) == [s[..Find(s, sep, 0)]] + Split(s[Find(s, sep, 0) + 1..], sep)
  {
  }

  /** The piece of `s.split('\n')` whose index is the number of newlines before
      `p` is the whole line around `p`: from the newline before it to the
      newline after it. */
  lemma {:induction false} SplitLineAt(s: string, p: nat)
    requires p <= |s|
    ensures Count(s[..p], '\n') < |Split(s, '\n')|
    ensures Split(s, '\n')[Count(s[..p], '\n')] == s[LineStart(s, p)..LineEnd(s, p)]
    decreases |s|
  {
    CountPrefix(s, p, '\n');
    var j := Find(s, '\n', 0);
    if p <= j {
      SplitFirstLine(s, p);
    } else {
      var t := s[j + 1..];
      var q := p - j - 1;
      SplitLineAt(t, q);
      SplitLaterLine(s, j, p, t, q);
    }
  }

  /** SplitLineAt for an offset on the first line. */
  lemma SplitFirstLine(s: string, p: nat)
    requires p <= Find(s, '\n', 0)
    ensures Count(s[..p], '\n') == 0
    ensures Split(s, '\n')[0] == s[LineStart(s, p)..LineEnd(s, p)]
  {
    SplitStep(s, '\n');
    var j := Find(s, '\n', 0);
    FindFirst(s, '\n', 0);
    CountZero(s[..p], '\n');
    LineStartUnique(s, p, 0);
    FindUnique(s, '\n', p, j);
  }

  /** SplitLineAt for an offset past the first newline, from the same fact about
      the text after that newline. */
  lemma SplitLaterLine(s: string, j: nat, p: nat, t: string, q: nat)
    requires j == Find(s, '\n', 0) && j < p <= |s|
    requires t == s[j + 1..] && q == p - j - 1
    requires Count(t[..q], '\n') < |Split(t, '\n')|
    requires Split(t, '\n')[Count(t[..q], '\n')] == t[LineStart(t, q)..LineEnd(t, q)]
    ensures Count(s[..p], '\n') < |Split(s, '\n')|
    ensures Split(s, '\n')[Count(s[..p], '\n')] == s[LineStart(s, p)..LineEnd(s, p)]
  {
    var l, e := LineStart(t, q), LineEnd(t, q);
    var ls, le := LineStart(s, p), LineEnd(s, p);
    var rest, parts := Split(t, '\n'), Split(s, '\n');
    var r, k := Count(t[..q], '\n'), Count(s[..p], '\n');
    CountAfterFirst(s, j, p);
    CountPrefix(s, p, '\n');
    assert 1 <= k < |parts|;
    LineAfterNewline(s, j, p);
    assert l <= e <= |t| == |s| - (j + 1);
    assert ls == j + 1 + l && le == j + 1 + e;
    SliceShift(s, j + 1, l, e, ls, le);
    SplitPieceAfter(s, '\n', k);
    assert k - 1 == r;
    calc {
      parts[k];
      Split(s[j + 1..], '\n')[k - 1];
      { assert s[j + 1..] == t; }
      rest[r];
      t[l..e];
      s[ls..le];
    }
  }

  /** Past the first piece, the pieces of a split are those of the text after
      the first separator. */
  lemma SplitPieceAfter(s: string, sep: char, k: nat)
    requires Find(s, sep, 0) < |s| && 1 <= k < |Split(s, sep)|
    ensures Split(s, sep)[k] == Split(s[Find(s, sep, 0) + 1..], sep)[k - 1]
  {
    var j := Find(s, sep, 0);
    SplitStep(s, sep);
    ConsIndex(Split(s, sep), s[..j], Split(s[j + 1..], sep), k);
  }

  /** Past the head, a list built as head-then-rest is indexed by the rest. */
  lemma ConsIndex<T>(xs: seq<T>, x: T, rest: seq<T>, k: nat)
    requires xs == [x] + rest && 1 <= k < |xs|
    ensures xs[k] == rest[k - 1]
  {
  }

  lemma SliceShift(s: string, d: nat, a: nat, b: nat, a': nat, b': nat)
    requires d <= |s| && a <= b <= |s| - d && a' == d + a && b' == d + b
    ensures s[d..][a..b] == s[a'..b']
  {
  }

  /** A prefix reaching past index `j` is the part before `j`, the character
      at `j`, and the part after it. */
  lemma PrefixAround(s: string, j: nat, p: nat)
    requires j < p <= |s|
    ensures s[..p] == s[..j] + [s[j]] + s[j + 1..][..p - j - 1]
  {
  }

  /** Before `p`, past the first newline at `j`, there is one newline more than
      in the part of the text after `j`. */
  lemma CountAfterFirst(s: string, j: nat, p: nat)
    requires j == Find(s, '\n', 0) && j < p <= |s|
    ensures Count(s[..p], '\n') == 1 + Count(s[j + 1..][..p - j - 1], '\n')
  {
    var t := s[j + 1..];
    var q := p - j - 1;
    calc {
      Count(s[..p], '\n');
      { PrefixAround(s, j, p); }
      Count(s[..j] + ['\n'] + t[..q], '\n');
      { CountAppend(s[..j] + ['\n'], t[..q], '\n'); }
      Count(s[..j] + ['\n'], '\n') + Count(t[..q], '\n');
      { CountAppend(s[..j], ['\n'], '\n'); }
      Count(s[..j], '\n') + Count(['\n'], '\n') + Count(t[..q], '\n');
      { FindFirst(s, '\n', 0);
        CountZero(s[..j], '\n');
        assert ['\n'][1..] == []; }
      1 + Count(t[..q], '\n');
    }
  }

  /** Past a newline at `j`, line boundaries and newline counts are those of the
      text after `j`, shifted by `j + 1`. */
  lemma LineAfterNewline(s: string, j: nat, p: nat)
    requires j < p <= |s| && s[j] == '\n'
    ensures LineStart(s, p) == LineStart(s[j + 1..], p - j - 1) + j + 1
    ensures LineEnd(s, p) == LineEnd(s[j + 1..], p - j - 1) + j + 1
  {
    var t := s[j + 1..];
    var q := p - j - 1;
    var l := LineStart(t, q);
    var e := LineEnd(t, q);
    LineStartLast(t, q);
    FindFirst(t, '\n', q);
    forall k | l + j + 1 <= k < p
      ensures s[k] != '\n'
    {
      assert s[k] == t[k - j - 1];
    }
    LineStartUnique(s, p, l + j + 1);
    forall k | p <= k < e + j + 1
      ensures s[k] != '\n'
    {
      assert s[k] == t[k - j - 1];
    }
    FindUnique(s, '\n', p, e + j + 1);
  }

  /** The first index at or after `from` that holds whitespace, or `|s|`. */
  function FindSpace(s: string, from: nat): (j: nat)
    requires from <= |s|
    ensures from <= j <= |s|
    ensures j < |s| ==> IsSpace(s[j])
    ensures forall k :: from <= k < j ==> !IsSpace(s[k])
    decreases |s| - from
  {
    if from == |s| then |s|
    else if IsSpace(s[from]) then from
    else FindSpace(s, from + 1)
  }

  /** `s.split()` with no separator: the maximal runs of non-whitespace. */
  function Tokens(s: string): (r: seq<string>)
    ensures forall k :: 0 <= k < |r| ==> |r[k]| > 0
    ensures forall k, i :: 0 <= k < |r| && 0 <= i < |r[k]| ==> !IsSpace(r[k][i])
    decreases |s|
  {
    if |s| == 0 then []
    else if IsSpace(s[0]) then Tokens(s[1..])
    else
      var e := FindSpace(s, 0);
      [s[..e]] + Tokens(s[e..])
  }

  /** `not s.strip()`: nothing but whitespace. */
  predicate IsBlank(s: string) {
    forall i :: 0 <= i < |s| ==> IsSpace(s[i])
  }

  /** The characters of `s` that are not whitespace, in order. */
  function NonSpace(s: string): (r: string)
    ensures |r| <= |s|
  {
    if |s| == 0 then ""
    else if IsSpace(s[0]) then NonSpace(s[1..])
    else [s[0]] + NonSpace(s[1..])
  }

  function Concat(parts: seq<string>): string {
    if |parts| == 0 then "" else parts[0] + Concat(parts[1..])
  }

  lemma {:induction false} NonSpaceOfWord(s: string)
    requires forall i :: 0 <= i < |s| ==> !IsSpace(s[i])
    ensures NonSpace(s) == s
    decreases |s|
  {
    if |s| > 0 {
      NonSpaceOfWord(s[1..]);
    }
  }

  lemma {:induction false} NonSpaceAppend(a: string, b: string)
    ensures NonSpace(a + b) == NonSpace(a) + NonSpace(b)
    decreases |a|
  {
    if |a| > 0 {
      assert (a + b)[1..] == a[1..] + b;
      NonSpaceAppend(a[1..], b);
    } else {
      assert a + b == b;
    }
  }

  /** The tokens of `s.split()`, glued together, are exactly the non-whitespace
      characters of `s`: no character is lost, none is invented. */
  lemma {:induction false} TokensCoverText(s: string)
    ensures Concat(Tokens(s)) == NonSpace(s)
    decreases |s|
  {
    if |s| > 0 {
      if IsSpace(s[0]) {
        TokensCoverText(s[1..]);
      } else {
        var e := FindSpace(s, 0);
        TokensCoverText(s[e..]);
        assert s == s[..e] + s[e..];
        NonSpaceAppend(s[..e], s[e..]);
        NonSpaceOfWord(s[..e]);
        assert Tokens(s)[1..] == Tokens(s[e..]);
      }
    }
  }

  /** A text has no `str.split()` tokens exactly when `str.strip()` empties it. */
  lemma {:induction false} TokensEmptyIffBlank(s: string)
    ensures |Tokens(s)| == 0 <==> IsBlank(s)
    decreases |s|
  {
    if |s| > 0 && IsSpace(s[0]) {
      TokensEmptyIffBlank(s[1..]);
      if IsBlank(s[1..]) {
        forall i | 1 <= i < |s|
          ensures IsSpace(s[i])
        {
          assert s[i] == s[1..][i - 1];
        }
      }
    }
  }

  /** There are at most as many tokens as characters. */
  lemma {:induction false} TokensBounded(s: string)
    ensures |Tokens(s)| <= |s|
    decreases |s|
  {
    if |s| > 0 {
      if IsSpace(s[0]) {
        TokensBounded(s[1..]);
      } else {
        TokensBounded(s[FindSpace(s, 0)..]);
      }
    }
  }

  /** A word of `s.split()` ends at `i`: a non-whitespace character followed by
      whitespace or by the end of the text. */
  predicate WordEndAt(s: string, i: nat)
    requires i < |s|
  {
    !IsSpace(s[i]) && (i + 1 == |s| || IsSpace(s[i + 1]))
  }

  /** The number of positions where a word ends, counted character by
      character: the number of maximal runs of non-whitespace. */
  function WordEnds(s: string): nat {
    if |s| == 0 then 0
    else (if WordEndAt(s, 0) then 1 else 0) + WordEnds(s[1..])
  }

  /** A run of `e` non-whitespace characters at the front, closed by whitespace
      or the end, holds exactly one word end. */
  lemma {:induction false} WordEndsRun(s: string, e: nat)
    requires 1 <= e <= |s|
    requires forall k :: 0 <= k < e ==> !IsSpace(s[k])
    requires e == |s| || IsSpace(s[e])
    ensures WordEnds(s) == 1 + WordEnds(s[e..])
    decreases e
  {
    if e > 1 {
      assert !WordEndAt(s, 0);
      WordEndsRun(s[1..], e - 1);
      assert s[1..][e - 1..] == s[e..];
    }
  }

  /** `len(s.split())` is the number of words ending in `s`: each token is a
      maximal run of non-whitespace, never a piece of one. */
  lemma {:induction false} TokensCountWords(s: string)
    ensures |Tokens(s)| == WordEnds(s)
    decreases |s|
  {
    if |s| > 0 {
      if IsSpace(s[0]) {
        TokensCountWords(s[1..]);
      } else {
        var e := FindSpace(s, 0);
        WordEndsRun(s, e);
        TokensCountWords(s[e..]);
      }
    }
  }

  /** `w` occurs in `s` at `i` as a whole run: whitespace or an end of the
      text on both sides. */
  predicate RunAt(s: string, w: string, i: nat) {
    && i + |w| <= |s|
    && s[i..i + |w|] == w
    && (i == 0 || IsSpace(s[i - 1]))
    && (i + |w| == |s| || IsSpace(s[i + |w|]))
  }

  /** A whole run of the text after offset `d` is a whole run of the text,
      provided it does not start right after a non-whitespace character. */
  lemma RunShift(s: string, d: nat, w: string, i: nat)
    requires 0 < d <= |s| && RunAt(s[d..], w, i)
    requires i > 0 || IsSpace(s[d - 1])
    ensures RunAt(s, w, i + d)
  {
    assert s[d..][i..i + |w|] == s[i + d..i + d + |w|];
    if i > 0 {
      assert s[d..][i - 1] == s[i + d - 1];
    }
    if i + |w| < |s| - d {
      assert s[d..][i + |w|] == s[i + d + |w|];
    }
  }

  /** `w` occurs somewhere in `s` as a whole run. */
  ghost predicate IsRun(s: string, w: string) {
    exists i: nat :: RunAt(s, w, i)
  }

  /** Every piece of `ts` is a whole run of `s`. */
  ghost predicate AllRuns(s: string, ts: seq<string>) {
    forall k :: 0 <= k < |ts| ==> IsRun(s, ts[k])
  }

  /** Tokens past leading whitespace are whole runs of the whole text. */
  lemma RunsAfterSpace(s: string)
    requires |s| > 0 && IsSpace(s[0]) && AllRuns(s[1..], Tokens(s[1..]))
    ensures AllRuns(s, Tokens(s))
  {
    var r, t := Tokens(s), s[1..];
    assert r == Tokens(t);
    forall k | 0 <= k < |r|
      ensures IsRun(s, r[k])
    {
      var i: nat :| RunAt(t, r[k], i);
      RunShift(s, 1, r[k], i);
      assert RunAt(s, r[k], i + 1);
    }
  }

  /** A token of the text after a word and its closing whitespace is a whole
      run of the text. */
  lemma RunAfterWord(s: string, e: nat, w: string)
    requires 0 < e < |s| && IsSpace(s[e])
    requires |w| > 0 && !IsSpace(w[0]) && IsRun(s[e..], w)
    ensures IsRun(s, w)
  {
    var t := s[e..];
    var i: nat :| RunAt(t, w, i);
    assert t[i..i + |w|][0] == t[i];
    assert t[0] == s[e];
    assert i > 0;
    RunShift(s, e, w, i);
    assert RunAt(s, w, i + e);
  }

  /** The word a text opens with is a whole run of it. */
  lemma HeadWordRun(s: string, e: nat)
    requires |s| > 0 && !IsSpace(s[0]) && e == FindSpace(s, 0)
    ensures IsRun(s, s[..e])
  {
    assert s[0..e] == s[..e];
    assert RunAt(s, s[..e], 0);
  }

  /** Runs of the text after a word and its closing whitespace are runs of
      the whole text. */
  lemma RestRuns(s: string, e: nat, rest: seq<string>)
    requires 0 < e <= |s| && (e < |s| ==> IsSpace(s[e]))
    requires forall k :: 0 <= k < |rest| ==> |rest[k]| > 0 && !IsSpace(rest[k][0])
    requires |rest| > 0 ==> e < |s|
    requires AllRuns(s[e..], rest)
    ensures AllRuns(s, rest)
  {
    forall k | 0 <= k < |rest|
      ensures IsRun(s, rest[k])
    {
      RunAfterWord(s, e, rest[k]);
    }
  }

  /** The leading word and the tokens after it are whole runs of the text. */
  lemma RunsAfterWord(s: string)
    requires |s| > 0 && !IsSpace(s[0])
    requires AllRuns(s[FindSpace(s, 0)..], Tokens(s[FindSpace(s, 0)..]))
    ensures AllRuns(s, Tokens(s))
  {
    var e := FindSpace(s, 0);
    var head, rest := s[..e], Tokens(s[e..]);
    HeadWordRun(s, e);
    TokensBounded(s[e..]);
    RestRuns(s, e, rest);
    var r := Tokens(s);
    forall k | 0 <= k < |r|
      ensures IsRun(s, r[k])
    {
      if k > 0 {
        ConsIndex(r, head, rest, k);
      }
    }
  }

  /** Every token of `s.split()` is a maximal run of non-whitespace of `s`:
      a slice with whitespace or an end of the text on either side. */
  lemma {:induction false} TokensAreRuns(s: string)
    ensures AllRuns(s, Tokens(s))
    decreases |s|
  {
    if |s| > 0 {
      if IsSpace(s[0]) {
        TokensAreRuns(s[1..]);
        RunsAfterSpace(s);
      } else {
        TokensAreRuns(s[FindSpace(s, 0)..]);
        RunsAfterWord(s);
      }
    }
  }
}

=== FILE: viewer.dfy ===
/** The paged document view: the document's lines (`content.split('\n')`)
    shown a fixed number per page. */
module Viewer {
  import opened Text

  /** `max(1, ceil(lineCount / perPage))`. */
  function TotalPages(lineCount: nat, perPage: nat): (t: nat)
    requires perPage > 0
    ensures t >= 1
  {
    var pages := (lineCount + perPage - 1) / perPage;
    if pages < 1 then 1 else pages
  }

  /** The first line shown on `page` (0-based), `(page - 1) * perPage`. */
  function PageStart(page: nat, perPage: nat): nat
    requires page >= 1
  {
    (page - 1) * perPage
  }

  /** One past the last line shown on `page`, clipped to the document. */
  function PageEnd(lineCount: nat, page: nat, perPage: nat): (e: nat)
    requires page >= 1
    ensures e <= lineCount && e <= PageStart(page, perPage) + perPage
    ensures e < lineCount ==> e == PageStart(page, perPage) + perPage
  {
    var e := PageStart(page, perPage) + perPage;
    if e <= lineCount then e else lineCount
  }

  /** Multiplying by the same natural number keeps the order. */
  lemma MulMono(a: nat, b: nat, c: nat)
    requires a <= b
    ensures a * c <= b * c
  {
    assert b * c == a * c + (b - a) * c;
  }

  /** A multiple of `d` that fits under `m` has a factor at most `m / d`. */
  lemma MulBelowDiv(x: nat, d: nat, m: nat)
    requires d > 0 && x * d <= m
    ensures x <= m / d
  {
    var q, r := m / d, m % d;
    assert m == q * d + r;
    if x > q {
      MulMono(q + 1, x, d);
    }
  }

  /** The page count is the smallest count whose pages hold every line: all
      lines fit, and one page fewer would not hold them all (unless a single
      page is shown). */
  lemma TotalPagesFit(lineCount: nat, perPage: nat)
    requires perPage > 0
    ensures var t := TotalPages(lineCount, perPage);
      && t >= 1
      && lineCount <= t * perPage
      && (t == 1 || (t - 1) * perPage < lineCount)
  {
    var m := lineCount + perPage - 1;
    var q := m / perPage;
    assert m == q * perPage + m % perPage;
    if q >= 1 {
      assert (q - 1) * perPage == q * perPage - perPage;
    }
  }

  /** Every page the page picker allows starts inside the document (or at 0
      for an empty line list) and holds at most `perPage` lines. */
  lemma PageBounds(lineCount: nat, page: nat, perPage: nat)
    requires perPage > 0 && 1 <= page <= TotalPages(lineCount, perPage)
    ensures PageStart(page, perPage) <= PageEnd(lineCount, page, perPage) <= lineCount
    ensures PageEnd(lineCount, page, perPage) - PageStart(page, perPage) <= perPage
    ensures lineCount > 0 ==> PageStart(page, perPage) < PageEnd(lineCount, page, perPage)
  {
    TotalPagesFit(lineCount, perPage);
    var t := TotalPages(lineCount, perPage);
    var start := PageStart(page, perPage);
    if t > 1 {
      MulMono(page - 1, t - 1, perPage);
      assert start < lineCount;
    } else {
      assert start == 0;
    }
  }

  /** The first page starts at line 0, each page ends where the next begins,
      and the last page ends at the last line. */
  lemma PagesTile(lineCount: nat, page: nat, perPage: nat)
    requires perPage > 0 && 1 <= page <= TotalPages(lineCount, perPage)
    ensures PageStart(1, perPage) == 0
    ensures page < TotalPages(lineCount, perPage) ==>
      PageEnd(lineCount, page, perPage) == PageStart(page + 1, perPage)
    ensures page == TotalPages(lineCount, perPage) ==> PageEnd(lineCount, page, perPage) == lineCount
  {
    TotalPagesFit(lineCount, perPage);
    var t := TotalPages(lineCount, perPage);
    var start, next := PageStart(page, perPage), PageStart(page + 1, perPage);
    assert next == start + perPage by {
      assert page * perPage == (page - 1) * perPage + perPage;
    }
    if page < t {
      MulMono(page, t - 1, perPage);
      assert next < lineCount;
    } else {
      assert next == t * perPage by {
        assert page * perPage == (page - 1) * perPage + perPage;
      }
    }
  }

  /** Line `i` (0-based) is shown on page `i / perPage + 1`, which the page
      picker allows. */
  lemma LineOnPage(lineCount: nat, perPage: nat, i: nat)
    requires perPage > 0 && i < lineCount
    ensures var page := i / perPage + 1;
      && page <= TotalPages(lineCount, perPage)
      && PageStart(page, perPage) <= i < PageEnd(lineCount, page, perPage)
  {
    var k, r := i / perPage, i % perPage;
    assert i == k * perPage + r;
    assert PageStart(k + 1, perPage) == k * perPage;
    assert (k + 1) * perPage == k * perPage + perPage;
    MulBelowDiv(k + 1, perPage, lineCount + perPage - 1);
  }

  /** The lines shown on `page`, joined back with newlines. */
  function PageLines(lines: seq<string>, page: nat, perPage: nat): string
    requires page >= 1
  {
    var end := PageEnd(|lines|, page, perPage);
    var start := PageStart(page, perPage);
    if start <= end then Join(lines[start..end], '\n') else ""
  }

  /** `"\n".join(lines[start:end])` for the page of the document. */
  function PageContent(content: string, page: nat, perPage: nat): string
    requires page >= 1
  {
    PageLines(Split(content, '\n'), page, perPage)
  }

  /** Joining two non-empty runs of pieces is joining each and putting one
      separator between them. */
  lemma {:induction false} JoinAppend(a: seq<string>, b: seq<string>, sep: char)
    requires |a| > 0 && |b| > 0
    ensures Join(a + b, sep) == Join(a, sep) + [sep] + Join(b, sep)
    decreases |a|
  {
    if |a| == 1 {
      assert (a + b)[1..] == b;
    } else {
      assert (a + b)[1..] == a[1..] + b;
      JoinAppend(a[1..], b, sep);
    }
  }

  /** The texts of all pages of a line list, in page order. */
  function Paged(lines: seq<string>, perPage: nat): (pages: seq<string>)
    requires perPage > 0
    ensures |pages| == TotalPages(|lines|, perPage)
  {
    var t := TotalPages(|lines|, perPage);
    seq(t, i requires 0 <= i < t => PageLines(lines, i + 1, perPage))
  }

  /** The texts of all pages of the document, as the viewer shows them one
      page number at a time. */
  function AllPages(content: string, perPage: nat): (pages: seq<string>)
    requires perPage > 0
    ensures |pages| == TotalPages(|Split(content, '\n')|, perPage)
    ensures forall i :: 0 <= i < |pages| ==> pages[i] == PageContent(content, i + 1, perPage)
  {
    Paged(Split(content, '\n'), perPage)
  }

  /** Page `k` (past the first) continues the lines right where page `k - 1`
      stopped. */
  lemma NextPage(lines: seq<string>, perPage: nat, k: nat)
    requires perPage > 0 && 2 <= k <= TotalPages(|lines|, perPage)
    ensures 0 < PageEnd(|lines|, k - 1, perPage) < PageEnd(|lines|, k, perPage) <= |lines|
    ensures Paged(lines, perPage)[k - 1]
         == Join(lines[PageEnd(|lines|, k - 1, perPage)..PageEnd(|lines|, k, perPage)], '\n')
  {
    var n := |lines|;
    PageBounds(n, k, perPage);
    PagesTile(n, k - 1, perPage);
    PageBounds(n, k - 1, perPage);
  }

  /** The first page holds the first lines. */
  lemma FirstPage(lines: seq<string>, perPage: nat)
    requires perPage > 0
    ensures Join(Paged(lines, perPage)[..1], '\n') == Join(lines[..PageEnd(|lines|, 1, perPage)], '\n')
  {
    var pages := Paged(lines, perPage);
    PageBounds(|lines|, 1, perPage);
    assert pages[..1] == [pages[0]];
    assert lines[PageStart(1, perPage)..PageEnd(|lines|, 1, perPage)] == lines[..PageEnd(|lines|, 1, perPage)];
  }

  /** The first `k` pages, joined with newlines, are the first lines up to the
      end of page `k`, joined with newlines. */
  lemma {:induction false} FirstPages(lines: seq<string>, perPage: nat, k: nat)
    requires perPage > 0 && 1 <= k <= TotalPages(|lines|, perPage)
    ensures Join(Paged(lines, perPage)[..k], '\n') == Join(lines[..PageEnd(|lines|, k, perPage)], '\n')
    decreases k
  {
    if k == 1 {
      FirstPage(lines, perPage);
    } else {
      var pages := Paged(lines, perPage);
      var mid, end := PageEnd(|lines|, k - 1, perPage), PageEnd(|lines|, k, perPage);
      NextPage(lines, perPage, k);
      calc {
        Join(pages[..k], '\n');
        { assert pages[..k] == pages[..k - 1] + [pages[k - 1]];
          JoinAppend(pages[..k - 1], [pages[k - 1]], '\n'); }
        Join(pages[..k - 1], '\n') + "\n" + pages[k - 1];
        { FirstPages(lines, perPage, k - 1); }
        Join(lines[..mid], '\n') + "\n" + Join(lines[mid..end], '\n');
        { JoinAppend(lines[..mid], lines[mid..end], '\n'); }
        Join(lines[..mid] + lines[mid..end], '\n');
        { assert lines[..mid] + lines[mid..end] == lines[..end]; }
        Join(lines[..end], '\n');
      }
    }
  }

  /** Reading every page in turn shows the whole document: the page texts
      joined with newlines are the content itself. */
  lemma PagesReassemble(content: string, perPage: nat)
    requires perPage > 0
    ensures Join(AllPages(content, perPage), '\n') == content
  {
    var lines := Split(content, '\n');
    var t := TotalPages(|lines|, perPage);
    var pages := AllPages(content, perPage);
    FirstPages(lines, perPage, t);
    PagesTile(|lines|, t, perPage);
    assert pages[..t] == pages;
    assert lines[..|lines|] == lines;
    JoinSplit(content, '\n');
  }
}
